=== FILE: README.md ===
# Thin-walled airfoil shear flow, in Dafny

This project models the analysis chain of a set of scripts that compute
the shear flow in a single-cell, thin-walled airfoil section with a spar:

1. **Geometry** (`gen_airfoil_points.py`). The mean camber line `yc` and its
   slope `dycdx`. Range-checked interpolation on a sampled curve
   (`_interp_on_curve`). Clipping of a curve at the spar abscissa
   (`clip_curve_at_x`). Reversal of the upper chain so that the contour runs
   counter-clockwise. The cumulative arc length of a chain (`cumulative_s`).
2. **Panelizer** (`gen_panels.py`). The labelled contour points (`upper`,
   `lower`, `spar`) are sorted by group and arc length and differenced
   group by group into segments with a length `ds`, a midpoint
   (`xm`, `ym`) and an angle `theta`. Only segments of positive length are
   kept.
3. **Section properties** (`section_properties.py`). Total wall length,
   area `t·L`, centroid and second moments `Ixx`, `Iyy`, `Ixy`, all by the
   midpoint rule.
4. **Open-section basic flow** (`shear_flow_open.py`, `qs_basic`). Running
   first moments `Qy`, `Qx`, the two flow constants and
   `qs_b = −(A·Qy + B·Qx)`.
5. **Closed-cell correction** (`shear_flow_closed.py`). The enclosed area
   by the shoelace formula. The torque of the basic flow. The redundant
   flow `q0` that balances the external torque. The total flow and the
   shear stress.

Modelling conventions:

- Floats are modelled as `real`.
- The square root, `atan2`, `sin` and `cos` are inputs of the model.
  - A segment length is any non-negative `d` with `d² = dx² + dy²`.
  - `atan2`, `sin` and `cos` are function parameters.
- A Python `ZeroDivisionError` is `Err(DivisionByZero)`.
- A numpy division that would produce `inf`/`nan` is `Err(NonFinite)`.
- The `ValueError` of an out-of-range interpolation is `Err(OutOfRange)`.

The modules follow the scripts: `Camber` and `Curve` (geometry),
`Contour` and `Panels` (panelizer), `Integrals` and `Section` (section
properties), `ShearOpen` and `ShearClosed` (flows), and `Pipeline`, which
chains the section properties into the basic flow. `Results`, `RealArith`,
`RealSums` and `Sorting` are support modules.

Two details of the camber line that the model follows:

- `yc` and `dycdx` evaluate both parabolic branches eagerly with Python
  floats. So `p = 0` or `p = 1` raises `ZeroDivisionError`
  (gen_airfoil_points.py:27-28, 32-33), which is `Err(DivisionByZero)`
  in `Camber.Yc` and `Camber.Dycdx`.
- `np.where(u < p, a, b)` takes the aft branch at `u = p`. Both branches
  give `c·m` there (`Camber.CamberContinuous`).

## Model

| member | source | states |
|---|---|---|
| Camber.Yc | gen_airfoil_points.py:26-29 | the camber height fails with a division by zero exactly when p is 0 or 1, since both branches divide by p² and (1 − p)² |
| Camber.Dycdx | gen_airfoil_points.py:31-34 | the camber slope fails exactly when p is 0 or 1 |
| Camber.CamberVertexForm | gen_airfoil_points.py:26-34 | each branch is a parabola in vertex form (downward for m > 0) with vertex value c·m at u = p, and the slope is twice the branch coefficient times (p − u) |
| Camber.CamberContinuous | gen_airfoil_points.py:26-29 | the fore and aft branches meet at u = p with the common height c·m, which is also yc(p) |
| Camber.CamberEndsOnChord | gen_airfoil_points.py:26-29 | the camber line meets the chord at the leading edge (u = 0) and the trailing edge (u = 1) |
| Camber.CamberPeak | gen_airfoil_points.py:26-29 | for non-negative chord and camber, no point of the camber line is higher than c·m |
| Camber.SlopeZeroAtPeak | gen_airfoil_points.py:31-34 | the slope is zero at the maximum-camber station |
| Camber.SlopeSign | gen_airfoil_points.py:31-34 | for positive camber the slope is positive exactly ahead of p and negative exactly behind it |
| Camber.SlopeIsDerivative | gen_airfoil_points.py:26-34 | dycdx is the derivative of yc/c: for two stations on one branch, the difference of the yc values is c times their distance times the dycdx value at their midpoint |
| Curve.Dedup | gen_airfoil_points.py:59-62 | keeping one sample per abscissa of a sorted curve gives strictly increasing abscissae, drawn from the curve, covering exactly the curve's abscissae, with the same first and last abscissa |
| Curve.InterpSorted | gen_airfoil_points.py:65 | linear interpolation returns a sample's ordinate at a sampled abscissa; elsewhere it is the straight line through the two enclosing samples, lying between their ordinates |
| Curve.InterpOnCurve | gen_airfoil_points.py:58-65 | an empty curve fails; otherwise the query succeeds exactly when the abscissa lies within the sampled range; the result is a sample's ordinate at a sampled abscissa; otherwise it is the straight-line value at the query between the two adjacent samples that enclose it, and so lies between their ordinates |
| Curve.KeepSide | gen_airfoil_points.py:73-77 | the boolean mask keeps exactly the samples on the chosen side of the cut (within 1e-12), with their multiplicities, and keeps them sorted |
| Curve.ClipCurveAtX | gen_airfoil_points.py:67-77 | clipping fails exactly when interpolating the cut fails; otherwise the result is sorted by x, lies on the kept side, contains the cut point (with the interpolated ordinate InterpOnCurve describes) and every kept original sample, and is the kept part of the curve plus the cut point as a multiset |
| Curve.Reverse | gen_airfoil_points.py:103-104 | `[::-1]`: same length, and element i of the result is element n − 1 − i of the input |
| Curve.ReverseInvolutive | gen_airfoil_points.py:103-104 | reversing a chain twice gives it back |
| Curve.UpperChain | gen_airfoil_points.py:103-104 | the reversed left part of the upper curve runs with non-increasing x, starts at the cut (not before it, at most the tolerance past it), and holds the same samples as the clipped curve |
| Curve.ArcLengths | gen_airfoil_points.py:79-82 | arc lengths start at 0, each step is the segment length, the last is the sum of all segment lengths, and they never decrease when no length is negative |
| Curve.CumulativeS | gen_airfoil_points.py:79-82 | one arc length per sample (a single 0 for an empty curve), starting at 0, increasing by each segment's Euclidean length, non-decreasing, ending at the total length |
| Contour.Chain | gen_panels.py:11-12 | one group's points sorted by arc length: exactly the points of that group, as a multiset |
| Sorting.SortByStable | gen_panels.py:12 | the sort is stable: for every key value, the elements with that key appear in the same order as in the input |
| Contour.ChainStable | gen_panels.py:12 | points of one group with equal arc length keep their input order, as in pandas' two-column sort |
| Contour.SortedFrame | gen_panels.py:11-12 | sorting by (group rank, s) orders rows by rank and then by arc length, and keeps exactly the points of ranked groups |
| Contour.SortedFramePermutes | gen_panels.py:11-12 | with every group ranked, the sorted table is a permutation of the input points |
| Contour.Rows | gen_panels.py:15-20 | each row's ds, dx, dy and midpoint come from the last earlier point of its own group, or are zero when there is none |
| Contour.RowsLocal | gen_panels.py:15-20 | on a table whose groups are contiguous, a row differences against the row just above it when that row is in the same group, and a row that opens its group has ds and midpoint 0 |
| Contour.RowsAppend | gen_panels.py:15-20 | differencing never crosses a group: the rows of two blocks with no group in common are the rows of each block |
| Contour.SortedRowsNonNegative | gen_panels.py:12-15 | after sorting by group and arc length every ds is non-negative |
| Panels.KeepPositive | gen_panels.py:23 | the kept panels are exactly the rows with ds > 0 (as a set of row indices), in row order, each carrying its row's midpoint, ds and atan2(dy, dx) |
| Panels.GenPanels | gen_panels.py:11-23 | the panels are exactly the steps between consecutive points of one group of the table sorted upper, lower, spar and by s where s rises, one per step and in table order, so upper panels come first, then lower, then spar; each panel's ds, midpoint and atan2 angle are those of its two end points |
| Panels.KeepPositiveTotal | gen_panels.py:23 | dropping zero-length rows does not change any midpoint-rule integral |
| Panels.KeepPositiveCount | gen_panels.py:23 | the number of panels is the number of rows with positive length |
| Panels.PanelsIntegrateLikeSection | gen_panels.py:11-23 | every midpoint-rule integral over the panels equals the same integral over the segments the section-property script builds, despite the different group order |
| Panels.PanelCount | gen_panels.py:11-23 | when arc lengths within a group are distinct, there is one panel per point minus one per non-empty group |
| Section.MaxS | section_properties.py:26 | a group's final arc length is the largest arc length among its points |
| Section.TotalLength | section_properties.py:26 | with no negative arc length, the total length is not negative and no point's arc length exceeds it |
| Section.SectionProperties | section_properties.py:26-36 | the result is non-finite exactly when t or the total length is zero; otherwise the length is the sum of the groups' final arc lengths and the area is t times it |
| Section.PropertiesOf | section_properties.py:27-36 | the length is the given one, the area is t times it, and the centroid times the length equals the first moment of the midpoints (x̄ and ȳ are length-weighted means) |
| Section.SecondMomentsBounds | section_properties.py:34-36 | with no negative segment length and t > 0, Ixx and Iyy are non-negative and Ixy² ≤ Ixx·Iyy |
| Section.SectionSecondMoments | section_properties.py:34-36 | the same bounds for the properties of a contour sorted by arc length |
| Section.OrderIndependent | section_properties.py:12-22 | the integrals do not depend on the order in which the groups are ranked |
| Section.LengthIsSumOfSteps | section_properties.py:20-26 | when each group's arc length starts at 0, the total length (the sum of the groups' largest s) equals the sum of all ds |
| Section.FirstMomentsVanish | section_properties.py:30-31 | under the same condition the first moments about the centroid are zero |
| ShearOpen.Constants | shear_flow_open.py:16-18 | the flow constants fail with a division by zero exactly when Ixx·Iyy − Ixy² is zero |
| ShearOpen.ConstantsSolve | shear_flow_open.py:16-18 | the constants solve the bending equations A·Iyy + B·Ixy = −Sx and A·Ixy + B·Ixx = −Sy |
| ShearOpen.ConstantsUnique | shear_flow_open.py:16-18 | any solution of those equations is the pair of constants computed |
| ShearOpen.QsBasic | shear_flow_open.py:4-22 | fails exactly when the determinant is zero; otherwise one row per panel, Qy and Qx are the running sums of t·(xm − x̄)·ds and t·(ym − ȳ)·ds, and qs_b is −(A·Qy + B·Qx) with the computed constants |
| ShearOpen.NoLoadNoFlow | shear_flow_open.py:16-21 | with no shear load the basic flow is zero everywhere |
| ShearOpen.ConstantsLinear | shear_flow_open.py:16-18 | the constants are linear in the shear loads |
| ShearOpen.FlowLinear | shear_flow_open.py:4-22 | the basic flow of the sum of two loads is the sum of their basic flows |
| ShearOpen.MomentTermsSum | shear_flow_open.py:12-13 | the running first moment over all panels is t times the integral over the panels |
| ShearOpen.LastMomentVanishes | shear_flow_open.py:12-13 | taken about the panels' centroid, the running first moments return to zero at the last panel |
| ShearClosed.CellArea | shear_flow_closed.py:38 | the enclosed area is non-negative and is plus or minus half the shoelace sum |
| ShearClosed.CellAreaRotationInvariant | shear_flow_closed.py:38 | the enclosed area does not depend on which panel the closed loop starts at |
| ShearClosed.ArmOfStep | shear_flow_closed.py:40-44 | for a panel whose midpoint is halfway along its step from (x0, y0) to (x1, y1) and whose ds·(cos θ, sin θ) is that step, ds·p = x0·y1 − x1·y0: twice the signed area of the triangle the step makes with the origin, the term a shoelace sum adds |
| ShearClosed.ArmAlongLine | shear_flow_closed.py:40-44 | sliding the midpoint along the panel's tangent does not change the arm: it depends only on the line of action |
| ShearClosed.BasicTorque | shear_flow_closed.py:44-46 | a table with zero basic flow everywhere has zero torque |
| ShearClosed.BasicTorqueLinear | shear_flow_closed.py:44-46 | scaling every row's flow by k scales T_b by k |
| ShearClosed.BasicTorqueAppend | shear_flow_closed.py:46 | the torque of two tables laid end to end is the sum of their torques |
| ShearClosed.ExternalTorque | shear_flow_closed.py:48-50 | a load through the centroid gives no torque; for Sy > 0 the torque is positive exactly when x_load is ahead of (less than) x̄ |
| ShearClosed.ExternalTorqueAnyHeight | shear_flow_closed.py:48-50 | T_ext is minus the moment about the centroid of the force (0, Sy) applied at any height on the line x = x_load |
| ShearClosed.RedundantFlow | shear_flow_closed.py:49-51 | q0 balances the torque: T_b + 2·A_cell·q0 = T_ext |
| ShearClosed.Stress | shear_flow_closed.py:55 | the stress times the thickness gives the flow back |
| ShearClosed.CloseRows | shear_flow_closed.py:54-55 | each row keeps its basic flow, its total flow exceeds the basic flow by q0, and its stress times t is its total flow |
| ShearClosed.CloseCell | shear_flow_closed.py:36-55 | the result is non-finite exactly when the cell area or t is zero; otherwise the torque balance holds and every row carries q_total = qs_b + q0 and tau·t = q_total |
| ShearClosed.RedundantFlowUnique | shear_flow_closed.py:49-51 | q0 is the only constant flow that balances the torque |
| Pipeline.PanelCentroid | section_properties.py:30-31 | the contour's centroid is also the length-weighted mean of the panel midpoints |
| Pipeline.BasicFlowCloses | shear_flow_closed.py:17-31 | fed the section properties of the same contour, the basic flow's Qy and Qx are zero at the last panel |

## Left out

- `yt`, `naca4_upper_lower` and `rotate_xy` are not modelled. `yt` and
  `rotate_xy` are closed-form evaluations (square root, arctan, sine,
  cosine) with no error path. `naca4_upper_lower` calls `yc` and `dycdx`,
  so it inherits their division by zero for `p` equal to 0 or 1, as
  `Camber.Yc` and `Camber.Dycdx` model it. The model starts from the
  sampled curves these functions produce.
- The spar chain (`np.full` / `np.linspace` between the interpolated end
  points) and the CSV assembly of the contour table are not modelled. The
  panelizer and the section-property script take the contour table as
  their input.
- Reading and writing CSV files, printing and plotting are left out. The
  configuration constants (chord, camber, `t = 1e-3`, the loads,
  `x_load`) are parameters of the model.
- Square root, `atan2`, `sin` and `cos` are inputs. Nothing about their
  values is assumed beyond the segment-length relation.
- ShearClosed.ArmOfStep: takes `ds·cos θ = dx` and `ds·sin θ = dy` as
  hypotheses. Since `atan2`, `sin` and `cos` are inputs, the model does
  not derive them from `θ = atan2(dy, dx)` and `ds = √(dx² + dy²)`.
- Floating-point rounding is not modelled. All arithmetic is exact over
  the reals.
- Curve.Dedup: the model sorts with a stable insertion sort and keeps the
  first sample of each run of equal abscissae. numpy's `argsort`
  (quicksort) does not specify which sample of a tie comes first. The
  contract therefore states only what holds for any choice.
- Contour.SortedFrame: pandas keeps ties in input order for this
  two-column sort, and so does the model's insertion sort
  (`Contour.ChainStable`). The contract of `SortedFrame` itself states
  only the order and the permutation. A tie in `s` within a group comes
  from a zero-length segment, whose end points coincide.
- Contour.Rows: the `dx` and `dy` of a group's first row are `NaN` after
  `diff`. They are modelled as 0. Such a row has `ds = 0` and is never
  kept as a panel.
- Curve.ClipCurveAtX: any `side` other than `"left"` is modelled as the
  single alternative `Right`.
- Panels.PanelCount: stated only for contours whose arc lengths within a
  group are distinct. With repeated arc lengths, some zero-length rows are
  dropped and the count is smaller.
- ShearClosed.CloseCell: the external torque uses only `Sy`, as the
  script does (its `Sx` is 0).

=== FILE: camber.dfy ===
/** Mean camber line of a 4-digit-family airfoil (`yc`) and its slope
    (`dycdx`), in the chord fraction u. Both parabolic branches are
    evaluated eagerly by the scripts with Python floats, so p = 0 or p = 1
    raises a division by zero whatever u is. */
module Camber {
  import opened Results
  import opened RealArith

  /** Curvature coefficient m / q² of a branch whose apex lies q away from
      the end of the chord it reaches (q = p fore, q = 1 − p aft). */
  function Coeff(m: real, q: real): real
    requires q != 0.0
  {
    m / (q * q)
  }

  /** Coefficient of the branch that u falls in (u < p selects the fore one). */
  function BranchCoeff(u: real, m: real, p: real): real
    requires p != 0.0 && p != 1.0
  {
    if u < p then Coeff(m, p) else Coeff(m, 1.0 - p)
  }

  /** Fore parabola (u < p), per unit chord. */
  function Fore(u: real, m: real, p: real): real
    requires p != 0.0
  {
    Coeff(m, p) * (2.0 * p * u - u * u)
  }

  /** Aft parabola (u >= p), per unit chord. */
  function Aft(u: real, m: real, p: real): real
    requires p != 1.0
  {
    Coeff(m, 1.0 - p) * ((1.0 - 2.0 * p) + 2.0 * p * u - u * u)
  }

  /** Camber height per unit chord: the fore parabola for u < p, the aft
      one otherwise. */
  function UnitCamber(u: real, m: real, p: real): real
    requires p != 0.0 && p != 1.0
  {
    if u < p then Fore(u, m, p) else Aft(u, m, p)
  }

  /** The vertex form of one branch: apex m at u = p, falling off with the
      branch coefficient times the squared distance from p. */
  function VertexCamber(u: real, m: real, p: real): real
    requires p != 0.0 && p != 1.0
  {
    m - BranchCoeff(u, m, p) * ((u - p) * (u - p))
  }

  /** Camber line height at u for chord c, maximum camber m and its
      location p. */
  function Yc(u: real, c: real, m: real, p: real): (r: Result<real>)
    ensures r.Err? <==> (p == 0.0 || p == 1.0)
    ensures r.Err? ==> r.error == DivisionByZero
  {
    if p == 0.0 || p == 1.0 then Err(DivisionByZero)
    else Ok(c * UnitCamber(u, m, p))
  }

  /** Camber slope dyc/dx at u, same branch split as Yc. */
  function Dycdx(u: real, m: real, p: real): (r: Result<real>)
    ensures r.Err? <==> (p == 0.0 || p == 1.0)
    ensures r.Err? ==> r.error == DivisionByZero
  {
    if p == 0.0 || p == 1.0 then Err(DivisionByZero)
    else if u < p then Ok((2.0 * Coeff(m, p)) * (p - u))
    else Ok((2.0 * Coeff(m, 1.0 - p)) * (p - u))
  }

  lemma CoeffTimesSquare(m: real, q: real)
    requires q != 0.0
    ensures Coeff(m, q) * (q * q) == m
  {
  }

  /** Both branches are one parabola in vertex form (downward for m > 0,
      upward for m < 0): apex c·m at u = p, minus the branch coefficient
      times the squared distance from p; the slope is twice the coefficient
      times p − u. */
  lemma CamberVertexForm(u: real, c: real, m: real, p: real)
    requires p != 0.0 && p != 1.0
    ensures Yc(u, c, m, p).Ok? && Yc(u, c, m, p).value == c * VertexCamber(u, m, p)
    ensures Dycdx(u, m, p).Ok? && Dycdx(u, m, p).value == 2.0 * BranchCoeff(u, m, p) * (p - u)
  {
    YcVertexForm(u, c, m, p);
    DycdxVertexForm(u, m, p);
  }

  lemma YcVertexForm(u: real, c: real, m: real, p: real)
    requires p != 0.0 && p != 1.0
    ensures Yc(u, c, m, p).Ok? && Yc(u, c, m, p).value == c * VertexCamber(u, m, p)
  {
    UnitIsVertex(u, m, p);
  }

  lemma DycdxVertexForm(u: real, m: real, p: real)
    requires p != 0.0 && p != 1.0
    ensures Dycdx(u, m, p).Ok? && Dycdx(u, m, p).value == 2.0 * BranchCoeff(u, m, p) * (p - u)
  {
  }

  lemma UnitIsVertex(u: real, m: real, p: real)
    requires p != 0.0 && p != 1.0
    ensures UnitCamber(u, m, p) == VertexCamber(u, m, p)
  {
    if u < p {
      ForeVertex(u, m, p);
    } else {
      AftVertex(u, m, p);
    }
  }

  lemma ForeVertex(u: real, m: real, p: real)
    requires p != 0.0
    ensures Fore(u, m, p) == m - Coeff(m, p) * ((u - p) * (u - p))
  {
    CoeffTimesSquare(m, p);
    assert 2.0 * p * u - u * u == p * p - (u - p) * (u - p);
    assert Coeff(m, p) * (p * p - (u - p) * (u - p))
        == Coeff(m, p) * (p * p) - Coeff(m, p) * ((u - p) * (u - p));
  }

  lemma AftVertex(u: real, m: real, p: real)
    requires p != 1.0
    ensures Aft(u, m, p) == m - Coeff(m, 1.0 - p) * ((u - p) * (u - p))
  {
    CoeffTimesSquare(m, 1.0 - p);
    assert (1.0 - 2.0 * p) + 2.0 * p * u - u * u == (1.0 - p) * (1.0 - p) - (u - p) * (u - p);
    assert Coeff(m, 1.0 - p) * ((1.0 - p) * (1.0 - p) - (u - p) * (u - p))
        == Coeff(m, 1.0 - p) * ((1.0 - p) * (1.0 - p)) - Coeff(m, 1.0 - p) * ((u - p) * (u - p));
  }

  /** The two branches meet at u = p with the common height c·m, so the
      camber line is continuous; the value at u = p itself comes from the
      aft branch, since the test is u < p. */
  lemma CamberContinuous(c: real, m: real, p: real)
    requires p != 0.0 && p != 1.0
    ensures c * Fore(p, m, p) == c * m
    ensures c * Aft(p, m, p) == c * m
    ensures Yc(p, c, m, p).Ok? && Yc(p, c, m, p).value == c * m
  {
    ForeVertex(p, m, p);
    AftVertex(p, m, p);
  }

  /** The camber line meets the chord at the leading and trailing edges. */
  lemma CamberEndsOnChord(c: real, m: real, p: real)
    requires 0.0 < p < 1.0
    ensures Yc(0.0, c, m, p).Ok? && Yc(0.0, c, m, p).value == 0.0
    ensures Yc(1.0, c, m, p).Ok? && Yc(1.0, c, m, p).value == 0.0
  {
    assert (1.0 - 2.0 * p) + 2.0 * p * 1.0 - 1.0 * 1.0 == 0.0;
  }

  /** For non-negative chord and camber, c·m is the largest height the
      camber line reaches. */
  lemma CamberPeak(u: real, c: real, m: real, p: real)
    requires p != 0.0 && p != 1.0
    requires c >= 0.0 && m >= 0.0
    ensures Yc(u, c, m, p).value <= c * m
  {
    CamberVertexForm(u, c, m, p);
    VertexBelowApex(u, m, p);
    ScaleMonotone(c, VertexCamber(u, m, p), m);
  }

  lemma VertexBelowApex(u: real, m: real, p: real)
    requires p != 0.0 && p != 1.0
    requires m >= 0.0
    ensures VertexCamber(u, m, p) <= m
  {
    assert BranchCoeff(u, m, p) >= 0.0 by {
      if u < p { CoeffNonNegative(m, p); } else { CoeffNonNegative(m, 1.0 - p); }
    }
    SquareNonNegative(u - p);
    MulNonNegative(BranchCoeff(u, m, p), (u - p) * (u - p));
  }

  lemma CoeffNonNegative(m: real, q: real)
    requires q != 0.0 && m >= 0.0
    ensures Coeff(m, q) >= 0.0
  {
    if m == 0.0 {
      CoeffTimesSquare(m, q);
      if q > 0.0 {
        assert q * q > 0.0;
      } else {
        assert q * q == (-q) * (-q);
        assert (-q) * (-q) > 0.0;
      }
    } else {
      CoeffPositive(m, q);
    }
  }

  lemma CoeffPositive(m: real, q: real)
    requires q != 0.0 && m > 0.0
    ensures Coeff(m, q) > 0.0
  {
    if q > 0.0 {
      assert q * q > 0.0;
    } else {
      assert q * q == (-q) * (-q);
      assert (-q) * (-q) > 0.0;
    }
    assert m / (q * q) > 0.0;
  }

  /** The slope vanishes at the maximum-camber station. */
  lemma SlopeZeroAtPeak(m: real, p: real)
    requires p != 0.0 && p != 1.0
    ensures Dycdx(p, m, p).Ok? && Dycdx(p, m, p).value == 0.0
  {
  }

  /** For positive camber the slope has the sign of p − u: the camber line
      rises ahead of the peak and falls behind it. */
  lemma SlopeSign(u: real, m: real, p: real)
    requires p != 0.0 && p != 1.0
    requires m > 0.0
    ensures Dycdx(u, m, p).value > 0.0 <==> u < p
    ensures Dycdx(u, m, p).value < 0.0 <==> u > p
  {
    DycdxVertexForm(u, m, p);
    BranchCoeffPositive(u, m, p);
    SignOfProduct(Dycdx(u, m, p).value, 2.0 * BranchCoeff(u, m, p), p - u);
  }

  lemma BranchCoeffPositive(u: real, m: real, p: real)
    requires p != 0.0 && p != 1.0 && m > 0.0
    ensures BranchCoeff(u, m, p) > 0.0
  {
    if u < p { CoeffPositive(m, p); } else { CoeffPositive(m, 1.0 - p); }
  }

  /** A product with a positive factor has the sign of the other factor. */
  lemma SignOfProduct(d: real, k: real, x: real)
    requires k > 0.0 && d == k * x
    ensures d > 0.0 <==> x > 0.0
    ensures d < 0.0 <==> x < 0.0
  {
    if x > 0.0 {
      assert k * x > 0.0;
    } else if x < 0.0 {
      assert k * (-x) > 0.0;
    }
  }

  /** Dycdx is the derivative of Yc / c: for heights y1, y2 at u1, u2 on
      one branch, the chord between them has exactly the slope d taken at
      their midpoint, as for any parabola. */
  lemma SlopeIsDerivative(u1: real, u2: real, c: real, m: real, p: real, y1: real, y2: real, d: real)
    requires p != 0.0 && p != 1.0
    requires (u1 < p && u2 < p) || (u1 >= p && u2 >= p)
    requires Yc(u1, c, m, p) == Ok(y1) && Yc(u2, c, m, p) == Ok(y2)
    requires Dycdx((u1 + u2) / 2.0, m, p) == Ok(d)
    ensures y2 - y1 == c * (u2 - u1) * d
  {
    var v1 := HeightIs(u1, c, m, p, y1);
    var v2 := HeightIs(u2, c, m, p, y2);
    VertexChord(u1, u2, c, m, p, y1, y2, v1, v2, d);
  }

  /** The camber height is `c` times the vertex-form value at `u`. */
  lemma HeightIs(u: real, c: real, m: real, p: real, y: real) returns (v: real)
    requires p != 0.0 && p != 1.0 && Yc(u, c, m, p) == Ok(y)
    ensures v == VertexCamber(u, m, p) && y == c * v
  {
    YcVertexForm(u, c, m, p);
    v := VertexCamber(u, m, p);
  }

  /** SlopeIsDerivative on the vertex form. */
  lemma VertexChord(u1: real, u2: real, c: real, m: real, p: real, y1: real, y2: real, v1: real, v2: real, d: real)
    requires p != 0.0 && p != 1.0
    requires (u1 < p && u2 < p) || (u1 >= p && u2 >= p)
    requires v1 == VertexCamber(u1, m, p) && v2 == VertexCamber(u2, m, p)
    requires y1 == c * v1 && y2 == c * v2
    requires Dycdx((u1 + u2) / 2.0, m, p) == Ok(d)
    ensures y2 - y1 == c * (u2 - u1) * d
  {
    var mid := (u1 + u2) / 2.0;
    var k := if u1 < p then Coeff(m, p) else Coeff(m, 1.0 - p);
    VertexOnBranch(u1, m, p, k);
    VertexOnBranch(u2, m, p, k);
    SlopeOnBranch(mid, m, p, k);
    HeightChord(y1, y2, c, v1, v2, d, u1, u2, mid, m, k, p);
  }

  lemma VertexOnBranch(u: real, m: real, p: real, k: real)
    requires p != 0.0 && p != 1.0
    requires k == BranchCoeff(u, m, p)
    ensures VertexCamber(u, m, p) == m - k * ((u - p) * (u - p))
  {
  }

  lemma SlopeOnBranch(u: real, m: real, p: real, k: real)
    requires p != 0.0 && p != 1.0
    requires k == BranchCoeff(u, m, p)
    ensures Dycdx(u, m, p).Ok? && Dycdx(u, m, p).value == 2.0 * k * (p - u)
  {
  }

  /** The chord of `c·(m − k·(u − p)²)` between u1 and u2 has c times the
      slope `2·k·(p − u)` taken at the midpoint. */
  lemma HeightChord(y1: real, y2: real, c: real, v1: real, v2: real, d: real,
                    u1: real, u2: real, mid: real, m: real, k: real, p: real)
    requires y1 == c * v1 && y2 == c * v2
    requires v1 == m - k * ((u1 - p) * (u1 - p))
    requires v2 == m - k * ((u2 - p) * (u2 - p))
    requires mid == (u1 + u2) / 2.0 && d == 2.0 * k * (p - mid)
    ensures y2 - y1 == c * (u2 - u1) * d
  {
    ParabolaChord(v1, v2, d, u1, u2, mid, m, k, p);
    ScaleDifference(y1, y2, c, v1, v2, u2 - u1, d);
  }

  /** The chord of `m − k·(u − p)²` between u1 and u2 has the slope
      `2·k·(p − u)` taken at the midpoint. */
  lemma ParabolaChord(v1: real, v2: real, d: real, u1: real, u2: real, mid: real, m: real, k: real, p: real)
    requires v1 == m - k * ((u1 - p) * (u1 - p))
    requires v2 == m - k * ((u2 - p) * (u2 - p))
    requires mid == (u1 + u2) / 2.0 && d == 2.0 * k * (p - mid)
    ensures v2 - v1 == (u2 - u1) * d
  {
    var d1 := (u1 - p) * (u1 - p);
    var d2 := (u2 - p) * (u2 - p);
    assert d1 - d2 == (u2 - u1) * (2.0 * (p - mid));
    assert (m - k * d2) - (m - k * d1) == k * (d1 - d2);
  }

  lemma ScaleDifference(y1: real, y2: real, c: real, a: real, b: real, w: real, d: real)
    requires y1 == c * a && y2 == c * b && b - a == w * d
    ensures y2 - y1 == c * w * d
  {
    assert c * b - c * a == c * (b - a);
  }
}

=== FILE: contour.dfy ===
/** The contour as a table of labelled points (`panel`, `x`, `y`, `s`), its
    sort by group and arc length, and the per-group differencing that turns
    consecutive points into rows with a length `ds` and a midpoint. Both
    the panelizer and the section-property script build these rows; they
    rank the groups differently. */
module Contour {
  import opened Results
  import opened Sorting

  /** The `panel` label of a contour point. */
  datatype Group = Upper | Lower | Spar

  datatype ContourPoint = ContourPoint(group: Group, x: real, y: real, s: real)

  /** Sort key within a group. */
  function PointS(p: ContourPoint): real { p.s }

  /** The categorical order of the panelizer: upper, lower, spar. */
  const PanelOrder: seq<Group> := [Upper, Lower, Spar]

  /** The order of the raw labels as strings: "lower" < "spar" < "upper". */
  const LabelOrder: seq<Group> := [Lower, Spar, Upper]

  ghost predicate Distinct(o: seq<Group>) {
    forall i, j :: 0 <= i < j < |o| ==> o[i] != o[j]
  }

  /** A ranking of all three groups. */
  ghost predicate IsGroupOrder(o: seq<Group>) {
    |o| == 3 && Distinct(o)
  }

  /** Both rankings the scripts use rank every group once. */
  lemma RankingsAreGroupOrders()
    ensures IsGroupOrder(PanelOrder) && IsGroupOrder(LabelOrder)
  {
  }

  /** Position of a group in a ranking. */
  function Rank(o: seq<Group>, g: Group): (k: nat)
    requires g in o
    ensures k < |o| && o[k] == g
    ensures forall i :: 0 <= i < k ==> o[i] != g
  {
    if o[0] == g then 0 else 1 + Rank(o[1..], g)
  }

  /** The points with label `g`, in their original order. */
  function OfGroup(pts: seq<ContourPoint>, g: Group): (r: seq<ContourPoint>)
    ensures forall i :: 0 <= i < |r| ==> r[i].group == g
    ensures forall p :: multiset(r)[p] == if p.group == g then multiset(pts)[p] else 0
    ensures |r| <= |pts|
    decreases |pts|
  {
    if |pts| == 0 then []
    else
      var last := pts[|pts| - 1];
      assert pts == pts[..|pts| - 1] + [last];
      OfGroup(pts[..|pts| - 1], g) + (if last.group == g then [last] else [])
  }

  /** The points of one group, sorted by arc length. */
  function Chain(pts: seq<ContourPoint>, g: Group): (r: seq<ContourPoint>)
    ensures SortedBy(r, PointS)
    ensures forall i :: 0 <= i < |r| ==> r[i].group == g
    ensures forall p :: multiset(r)[p] == if p.group == g then multiset(pts)[p] else 0
  {
    var r := SortBy(OfGroup(pts, g), PointS);
    assert forall i :: 0 <= i < |r| ==> r[i].group == g by {
      forall i | 0 <= i < |r| ensures r[i].group == g {
        assert r[i] in multiset(OfGroup(pts, g));
      }
    }
    r
  }

  /** Points of one group with equal arc length stay in input order, as in
      pandas' stable sort on two columns. */
  lemma ChainStable(pts: seq<ContourPoint>, g: Group, k: real)
    ensures Ties(Chain(pts, g), PointS, k) == Ties(OfGroup(pts, g), PointS, k)
  {
    SortByStable(OfGroup(pts, g), PointS, k);
  }

  /** Points ordered by group rank first and arc length second. */
  ghost predicate OrderedBy(f: seq<ContourPoint>, o: seq<Group>)
    requires forall i :: 0 <= i < |f| ==> f[i].group in o
  {
    forall i, j :: 0 <= i < j < |f| ==>
      Rank(o, f[i].group) < Rank(o, f[j].group) ||
      (f[i].group == f[j].group && f[i].s <= f[j].s)
  }

  /** `sort_values(["panel", "s"])` with the groups ranked by `o`: the chains
      of the groups, one after the other. A point whose group `o` does not
      rank is dropped. */
  function SortedFrame(pts: seq<ContourPoint>, o: seq<Group>): (f: seq<ContourPoint>)
    requires Distinct(o)
    ensures forall i :: 0 <= i < |f| ==> f[i].group in o
    ensures OrderedBy(f, o)
    ensures forall p :: multiset(f)[p] == if p.group in o then multiset(pts)[p] else 0
    decreases |o|
  {
    if |o| == 0 then []
    else
      var c := Chain(pts, o[0]);
      var rest := SortedFrame(pts, o[1..]);
      FrameStep(pts, o, c, rest);
      c + rest
  }

  lemma FrameStep(pts: seq<ContourPoint>, o: seq<Group>, c: seq<ContourPoint>, rest: seq<ContourPoint>)
    requires |o| > 0 && Distinct(o)
    requires SortedBy(c, PointS) && forall i :: 0 <= i < |c| ==> c[i].group == o[0]
    requires forall i :: 0 <= i < |rest| ==> rest[i].group in o[1..]
    requires OrderedBy(rest, o[1..])
    ensures forall i :: 0 <= i < |c + rest| ==> (c + rest)[i].group in o
    ensures OrderedBy(c + rest, o)
  {
    var f := c + rest;
    forall g | g in o[1..] ensures g != o[0] && Rank(o, g) == 1 + Rank(o[1..], g) {
      var k :| 0 <= k < |o[1..]| && o[1..][k] == g;
      assert o[k + 1] == g;
    }
    forall i | 0 <= i < |f| ensures f[i].group in o {
      if i >= |c| { assert f[i] == rest[i - |c|]; }
    }
    forall i, j | 0 <= i < j < |f|
      ensures Rank(o, f[i].group) < Rank(o, f[j].group) ||
              (f[i].group == f[j].group && f[i].s <= f[j].s)
    {
      if j < |c| {
        assert PointS(c[i]) <= PointS(c[j]);
      } else if i < |c| {
        assert f[j] == rest[j - |c|];
      } else {
        assert f[i] == rest[i - |c|] && f[j] == rest[j - |c|];
      }
    }
  }

  /** A ranking of three distinct groups ranks every group. */
  lemma GroupOrderCovers(o: seq<Group>)
    requires IsGroupOrder(o)
    ensures forall g: Group :: g in o
  {
    forall g: Group ensures g in o {
      assert g == o[0] || g == o[1] || g == o[2];
    }
  }

  /** Under a full ranking the sorted frame is a permutation of the points. */
  lemma SortedFramePermutes(pts: seq<ContourPoint>, o: seq<Group>)
    requires IsGroupOrder(o)
    ensures multiset(SortedFrame(pts, o)) == multiset(pts)
    ensures |SortedFrame(pts, o)| == |pts|
  {
    GroupOrderCovers(o);
    var f := SortedFrame(pts, o);
    assert forall p :: multiset(f)[p] == multiset(pts)[p];
    assert multiset(f) == multiset(pts);
    assert |multiset(f)| == |multiset(pts)|;
  }

  /** The points of each group form one contiguous block. */
  ghost predicate GroupsContiguous(f: seq<ContourPoint>) {
    forall i, j, k :: 0 <= i < j < k < |f| && f[i].group == f[k].group ==> f[j].group == f[i].group
  }

  lemma OrderedContiguous(f: seq<ContourPoint>, o: seq<Group>)
    requires forall i :: 0 <= i < |f| ==> f[i].group in o
    requires OrderedBy(f, o)
    ensures GroupsContiguous(f)
  {
  }

  /** One row of the differenced table: the point itself, the arc-length
      step `ds`, the coordinate steps `dx`, `dy` and the midpoint
      (`xm`, `ym`) of the segment from the previous point of its group. */
  datatype Row = Row(point: ContourPoint, ds: real, dx: real, dy: real, xm: real, ym: real)

  /** The last point of group `g`, if any: what a pandas group-wise
      `shift()` pairs the next point of that group with. */
  function LastOfGroup(f: seq<ContourPoint>, g: Group): (r: Option<ContourPoint>)
    ensures r.None? <==> forall i :: 0 <= i < |f| ==> f[i].group != g
    ensures r.Some? ==> exists j :: 0 <= j < |f| && f[j] == r.value && r.value.group == g &&
                          forall k :: j < k < |f| ==> f[k].group != g
    decreases |f|
  {
    if |f| == 0 then None
    else if f[|f| - 1].group == g then Some(f[|f| - 1])
    else
      var r := LastOfGroup(f[..|f| - 1], g);
      LastOfGroupStep(f, f[..|f| - 1], g, r);
      r
  }

  /** A last point outside the group leaves the answer of the prefix. */
  lemma LastOfGroupStep(f: seq<ContourPoint>, p: seq<ContourPoint>, g: Group, r: Option<ContourPoint>)
    requires |f| > 0 && p == f[..|f| - 1] && f[|f| - 1].group != g
    requires r.None? <==> forall i :: 0 <= i < |p| ==> p[i].group != g
    requires r.Some? ==> exists j :: 0 <= j < |p| && p[j] == r.value && r.value.group == g &&
                           forall k :: j < k < |p| ==> p[k].group != g
    ensures r.None? <==> forall i :: 0 <= i < |f| ==> f[i].group != g
    ensures r.Some? ==> exists j :: 0 <= j < |f| && f[j] == r.value && r.value.group == g &&
                          forall k :: j < k < |f| ==> f[k].group != g
  {
    assert forall i :: 0 <= i < |p| ==> p[i] == f[i];
    if r.Some? {
      var j :| 0 <= j < |p| && p[j] == r.value && r.value.group == g &&
                forall k :: j < k < |p| ==> p[k].group != g;
      assert f[j] == r.value;
    }
  }

  /** The row of point `p` given its group predecessor: `diff().fillna(0)`
      for `ds`, the average with the shifted point, `fillna(0)`, for the
      midpoint. A group's first point gets zeros; its `dx`, `dy`, which `diff`
      leaves as NaN, are modelled as 0 as well. */
  function RowOf(p: ContourPoint, prev: Option<ContourPoint>): Row {
    match prev
    case None => Row(p, 0.0, 0.0, 0.0, 0.0, 0.0)
    case Some(q) => Row(p, p.s - q.s, p.x - q.x, p.y - q.y, 0.5 * (p.x + q.x), 0.5 * (p.y + q.y))
  }

  /** Group-wise differencing of a table, row by row in table order. */
  function Rows(f: seq<ContourPoint>): (r: seq<Row>)
    ensures |r| == |f|
    ensures forall i :: 0 <= i < |f| ==> r[i] == RowOf(f[i], LastOfGroup(f[..i], f[i].group))
    decreases |f|
  {
    if |f| == 0 then []
    else
      var n := |f| - 1;
      var r := Rows(f[..n]);
      var last := RowOf(f[n], LastOfGroup(f[..n], f[n].group));
      RowsStep(f, r, last);
      r + [last]
  }

  lemma RowsStep(f: seq<ContourPoint>, r: seq<Row>, last: Row)
    requires |f| > 0 && |r| == |f| - 1
    requires forall i :: 0 <= i < |f| - 1 ==> r[i] == RowOf(f[..|f| - 1][i], LastOfGroup(f[..|f| - 1][..i], f[..|f| - 1][i].group))
    requires last == RowOf(f[|f| - 1], LastOfGroup(f[..|f| - 1], f[|f| - 1].group))
    ensures forall i :: 0 <= i < |f| ==> (r + [last])[i] == RowOf(f[i], LastOfGroup(f[..i], f[i].group))
  {
    var n := |f| - 1;
    forall i | 0 <= i < |f| ensures (r + [last])[i] == RowOf(f[i], LastOfGroup(f[..i], f[i].group)) {
      if i < n {
        assert f[..n][..i] == f[..i] && f[..n][i] == f[i];
        assert (r + [last])[i] == r[i];
      } else {
        assert (r + [last])[i] == last;
      }
    }
  }

  /** On a table whose groups are contiguous, differencing is local: a row
      takes its step and midpoint from the row just above it when that row
      is in the same group, and zeros when it opens its group. Differences
      never cross a group boundary. */
  lemma RowsLocal(f: seq<ContourPoint>, i: nat)
    requires GroupsContiguous(f) && i < |f|
    ensures Rows(f)[i].point == f[i]
    ensures i > 0 && f[i - 1].group == f[i].group ==>
      && Rows(f)[i].ds == f[i].s - f[i - 1].s
      && Rows(f)[i].dx == f[i].x - f[i - 1].x
      && Rows(f)[i].dy == f[i].y - f[i - 1].y
      && Rows(f)[i].xm == 0.5 * (f[i].x + f[i - 1].x)
      && Rows(f)[i].ym == 0.5 * (f[i].y + f[i - 1].y)
    ensures !(i > 0 && f[i - 1].group == f[i].group) ==>
      Rows(f)[i].ds == 0.0 && Rows(f)[i].xm == 0.0 && Rows(f)[i].ym == 0.0
  {
    PreviousInGroup(f, i);
    var prev := if i > 0 && f[i - 1].group == f[i].group then Some(f[i - 1]) else None;
    assert Rows(f)[i] == RowOf(f[i], prev);
  }

  /** In a table whose groups are contiguous, the previous point of a
      point's group is the point just before it, if that one is in the
      group, and there is none otherwise. */
  lemma PreviousInGroup(f: seq<ContourPoint>, i: nat)
    requires GroupsContiguous(f) && i < |f|
    ensures LastOfGroup(f[..i], f[i].group) ==
      if i > 0 && f[i - 1].group == f[i].group then Some(f[i - 1]) else None
  {
    var g := f[i].group;
    var prev := LastOfGroup(f[..i], g);
    if i > 0 && f[i - 1].group == g {
      assert f[..i][i - 1] == f[i - 1];
    } else {
      forall k | 0 <= k < i ensures f[..i][k].group != g {
        assert f[..i][k] == f[k];
      }
    }
  }

  /** No group has points in both tables. */
  ghost predicate GroupsDisjoint(a: seq<ContourPoint>, b: seq<ContourPoint>) {
    forall i, j :: 0 <= i < |a| && 0 <= j < |b| ==> a[i].group != b[j].group
  }

  lemma {:induction false} LastOfGroupSkip(a: seq<ContourPoint>, c: seq<ContourPoint>, g: Group)
    requires forall i :: 0 <= i < |a| ==> a[i].group != g
    ensures LastOfGroup(a + c, g) == LastOfGroup(c, g)
    decreases |c|
  {
    if |c| == 0 {
      assert a + c == a;
    } else if c[|c| - 1].group != g {
      assert (a + c)[..|a + c| - 1] == a + c[..|c| - 1];
      LastOfGroupSkip(a, c[..|c| - 1], g);
    }
  }

  /** Differencing a table made of two blocks with no group in common is
      differencing each block. */
  lemma RowsAppend(a: seq<ContourPoint>, b: seq<ContourPoint>)
    requires GroupsDisjoint(a, b)
    ensures Rows(a + b) == Rows(a) + Rows(b)
  {
    forall i | 0 <= i < |a + b| ensures Rows(a + b)[i] == (Rows(a) + Rows(b))[i] {
      RowsAppendAt(a, b, i);
    }
  }

  lemma RowsAppendAt(a: seq<ContourPoint>, b: seq<ContourPoint>, i: nat)
    requires GroupsDisjoint(a, b) && i < |a + b|
    ensures Rows(a + b)[i] == (Rows(a) + Rows(b))[i]
  {
    var f := a + b;
    if i < |a| {
      assert f[..i] == a[..i] && f[i] == a[i];
      assert (Rows(a) + Rows(b))[i] == Rows(a)[i];
    } else {
      var k := i - |a|;
      assert f[..i] == a + b[..k] && f[i] == b[k];
      LastOfGroupSkip(a, b[..k], b[k].group);
      assert (Rows(a) + Rows(b))[i] == Rows(b)[k];
    }
  }

  /** Within each group, arc length does not decrease from one point to
      the next. */
  ghost predicate StepsNonDecreasing(f: seq<ContourPoint>) {
    forall j :: 0 < j < |f| && f[j - 1].group == f[j].group ==> f[j - 1].s <= f[j].s
  }

  lemma OrderedSteps(f: seq<ContourPoint>, o: seq<Group>)
    requires forall i :: 0 <= i < |f| ==> f[i].group in o
    requires OrderedBy(f, o)
    ensures StepsNonDecreasing(f)
  {
    forall j | 0 < j < |f| && f[j - 1].group == f[j].group ensures f[j - 1].s <= f[j].s {
      assert Rank(o, f[j - 1].group) == Rank(o, f[j].group);
    }
  }

  /** In a table sorted by group rank and arc length every `ds` is
      non-negative. */
  lemma SortedRowsNonNegative(f: seq<ContourPoint>, o: seq<Group>)
    requires forall i :: 0 <= i < |f| ==> f[i].group in o
    requires OrderedBy(f, o)
    ensures forall i :: 0 <= i < |f| ==> Rows(f)[i].ds >= 0.0
  {
    OrderedContiguous(f, o);
    OrderedSteps(f, o);
    forall i | 0 <= i < |f| ensures Rows(f)[i].ds >= 0.0 {
      StepRowNonNegative(f, i);
    }
  }

  lemma StepRowNonNegative(f: seq<ContourPoint>, i: nat)
    requires GroupsContiguous(f) && StepsNonDecreasing(f) && i < |f|
    ensures Rows(f)[i].ds >= 0.0
  {
    RowsLocal(f, i);
  }
}

=== FILE: curve.dfy ===
/** Sampled curves y(x): range-checked linear interpolation
    (`_interp_on_curve`), clipping at a vertical cut (`clip_curve_at_x`),
    reversal and cumulative arc length (`cumulative_s`). */
module Curve {
  import opened Results
  import opened Sorting
  import opened RealSums
  import opened RealArith

  datatype CurvePoint = CurvePoint(x: real, y: real)

  /** Sort key of a curve sample. */
  function X(p: CurvePoint): real { p.x }

  /** Absolute tolerance on the cut abscissa used by the clip mask (1e-12). */
  const ClipTolerance: real := 0.000000000001

  ghost predicate NonDecreasingX(u: seq<CurvePoint>) {
    forall i, j :: 0 <= i < j < |u| ==> u[i].x <= u[j].x
  }

  lemma SortedByXNonDecreasing(u: seq<CurvePoint>)
    requires SortedBy(u, X)
    ensures NonDecreasingX(u)
  {
    forall i, j | 0 <= i < j < |u| ensures u[i].x <= u[j].x {
      assert X(u[i]) <= X(u[j]);
    }
  }

  /** The set of abscissae sampled by a curve. */
  ghost function Abscissae(s: seq<CurvePoint>): set<real> {
    set p | p in s :: p.x
  }

  ghost predicate StrictlyIncreasingX(u: seq<CurvePoint>) {
    forall i, j :: 0 <= i < j < |u| ==> u[i].x < u[j].x
  }

  /** What keeping one sample per abscissa of the sorted samples `s` gives:
      no more samples than `s`, none exactly when `s` is empty, strictly
      increasing abscissae, every kept sample taken from `s`, every abscissa
      of `s` kept, and the first sample and the last abscissa unchanged. */
  ghost predicate DedupOf(s: seq<CurvePoint>, u: seq<CurvePoint>) {
    && |u| <= |s|
    && (|u| == 0 <==> |s| == 0)
    && StrictlyIncreasingX(u)
    && (forall j :: 0 <= j < |u| ==> u[j] in s)
    && Abscissae(u) == Abscissae(s)
    && (|s| > 0 ==> u[0] == s[0] && u[|u| - 1].x == s[|s| - 1].x)
  }

  /** `np.unique` on sorted abscissae with `return_index`: one sample of
      each run sharing an x is kept, so the kept abscissae are strictly
      increasing and cover every sampled abscissa. */
  function Dedup(s: seq<CurvePoint>): (u: seq<CurvePoint>)
    requires NonDecreasingX(s)
    ensures DedupOf(s, u)
    decreases |s|
  {
    if |s| == 0 then []
    else
      var p := s[..|s| - 1];
      var t := Dedup(p);
      var u := if |t| > 0 && t[|t| - 1].x == s[|s| - 1].x then t else t + [s[|s| - 1]];
      DedupStep(s, p, t, u);
      u
  }

  lemma AbscissaeSnoc(p: seq<CurvePoint>, q: CurvePoint)
    ensures Abscissae(p + [q]) == Abscissae(p) + {q.x}
  {
    forall x | x in Abscissae(p + [q]) ensures x in Abscissae(p) + {q.x} {
      var w :| w in p + [q] && w.x == x;
      if w != q { assert w in p; }
    }
    forall x | x in Abscissae(p) + {q.x} ensures x in Abscissae(p + [q]) {
      if x == q.x {
        assert q in p + [q];
      } else {
        var w :| w in p && w.x == x;
        assert w in p + [q];
      }
    }
  }

  lemma DedupStep(s: seq<CurvePoint>, p: seq<CurvePoint>, t: seq<CurvePoint>, u: seq<CurvePoint>)
    requires |s| > 0 && NonDecreasingX(s) && p == s[..|s| - 1]
    requires DedupOf(p, t)
    requires u == if |t| > 0 && t[|t| - 1].x == s[|s| - 1].x then t else t + [s[|s| - 1]]
    ensures DedupOf(s, u)
  {
    assert s == p + [s[|s| - 1]];
    if |t| > 0 && t[|t| - 1].x == s[|s| - 1].x {
      DedupSkip(p, s[|s| - 1], t);
    } else {
      DedupAppend(p, s[|s| - 1], t);
    }
  }

  /** The new sample repeats the last kept abscissa: nothing is added. */
  lemma DedupSkip(p: seq<CurvePoint>, last: CurvePoint, t: seq<CurvePoint>)
    requires DedupOf(p, t)
    requires |t| > 0 && t[|t| - 1].x == last.x
    ensures DedupOf(p + [last], t)
  {
    var s := p + [last];
    AbscissaeSnoc(p, last);
    assert last.x in Abscissae(t) by { assert t[|t| - 1] in t; }
    forall j | 0 <= j < |t| ensures t[j] in s { assert t[j] in p; }
    assert p[0] == s[0];
  }

  /** The new sample opens a new abscissa: it is appended. */
  lemma DedupAppend(p: seq<CurvePoint>, last: CurvePoint, t: seq<CurvePoint>)
    requires DedupOf(p, t)
    requires NonDecreasingX(p + [last])
    requires !(|t| > 0 && t[|t| - 1].x == last.x)
    ensures DedupOf(p + [last], t + [last])
  {
    var s := p + [last];
    var u := t + [last];
    AbscissaeSnoc(p, last);
    AbscissaeSnoc(t, last);
    if |p| > 0 {
      assert s[|p| - 1] == p[|p| - 1] && s[|p|] == last;
      assert t[|t| - 1].x <= last.x;
    }
    assert StrictlyIncreasingX(u) by {
      forall i, j | 0 <= i < j < |u| ensures u[i].x < u[j].x {
        if j < |t| {
          assert u[i] == t[i] && u[j] == t[j];
        } else {
          assert u[i] == t[i] && u[j] == last;
          assert t[i].x <= t[|t| - 1].x;
        }
      }
    }
    forall j | 0 <= j < |u| ensures u[j] in s {
      if j < |t| { assert u[j] == t[j] && t[j] in p; }
    }
    if |p| > 0 { assert u[0] == t[0]; assert p[0] == s[0]; }
  }

  /** `r` lies between `a` and `b`, whichever is larger. */
  ghost predicate Between(r: real, a: real, b: real) {
    (a <= r <= b) || (b <= r <= a)
  }

  /** Slope of the chord from `a` to `b`. */
  function Slope(a: CurvePoint, b: CurvePoint): real
    requires a.x < b.x
  {
    (b.y - a.y) / (b.x - a.x)
  }

  /** Linear interpolation between two samples, written as `np.interp` does:
      the chord slope times the offset from the left sample, plus its y. */
  function Lerp(a: CurvePoint, b: CurvePoint, xq: real): real
    requires a.x < b.x
  {
    Slope(a, b) * (xq - a.x) + a.y
  }

  lemma SlopeTimesRun(a: CurvePoint, b: CurvePoint)
    requires a.x < b.x
    ensures Slope(a, b) * (b.x - a.x) == b.y - a.y
  {
    QuotientTimesDivisor(b.y - a.y, b.x - a.x);
  }

  lemma QuotientTimesDivisor(n: real, d: real)
    requires d != 0.0
    ensures (n / d) * d == n
  {
  }

  /** The chord of slope `k` from `(x0, y0)` to `(x1, y1)` stays between
      `y0` and `y1` on `[x0, x1]`. */
  lemma ChordBetween(k: real, x0: real, y0: real, x1: real, y1: real, x: real)
    requires x0 <= x <= x1 && k * (x1 - x0) == y1 - y0
    ensures Between(k * (x - x0) + y0, y0, y1)
  {
    if k >= 0.0 {
      ScaleMonotone(k, 0.0, x - x0);
      ScaleMonotone(k, x - x0, x1 - x0);
    } else {
      ScaleMonotone(-k, 0.0, x - x0);
      ScaleMonotone(-k, x - x0, x1 - x0);
    }
  }

  lemma LerpAtLeft(a: CurvePoint, b: CurvePoint)
    requires a.x < b.x
    ensures Lerp(a, b, a.x) == a.y
  {
  }

  lemma LerpAtRight(a: CurvePoint, b: CurvePoint)
    requires a.x < b.x
    ensures Lerp(a, b, b.x) == b.y
  {
    SlopeTimesRun(a, b);
  }

  lemma LerpInside(a: CurvePoint, b: CurvePoint, xq: real)
    requires a.x <= xq <= b.x && a.x < b.x
    ensures Between(Lerp(a, b, xq), a.y, b.y)
  {
    SlopeTimesRun(a, b);
    ChordBetween(Slope(a, b), a.x, a.y, b.x, b.y, xq);
  }

  /** The interpolant passes through both samples and stays between their
      ordinates in between. */
  lemma LerpBetween(a: CurvePoint, b: CurvePoint, xq: real)
    requires a.x < b.x
    ensures Lerp(a, b, a.x) == a.y
    ensures Lerp(a, b, b.x) == b.y
    ensures a.x <= xq <= b.x ==> Between(Lerp(a, b, xq), a.y, b.y)
  {
    LerpAtLeft(a, b);
    LerpAtRight(a, b);
    if a.x <= xq <= b.x {
      LerpInside(a, b, xq);
    }
  }

  /** `np.interp` on strictly increasing abscissae, for a query inside
      their range: a query on a sample returns its ordinate; any other query
      is interpolated on the two samples around it. */
  function InterpSorted(xq: real, u: seq<CurvePoint>): (r: real)
    requires |u| > 0 && StrictlyIncreasingX(u)
    requires u[0].x <= xq <= u[|u| - 1].x
    ensures forall i :: 0 <= i < |u| && u[i].x == xq ==> r == u[i].y
    ensures (forall i :: 0 <= i < |u| ==> u[i].x != xq) ==>
      exists i :: 0 <= i < |u| - 1 && u[i].x < xq < u[i + 1].x &&
        r == Lerp(u[i], u[i + 1], xq) && Between(r, u[i].y, u[i + 1].y)
    decreases |u|
  {
    if |u| == 1 then u[0].y
    else if xq < u[1].x then
      LerpBetween(u[0], u[1], xq);
      Lerp(u[0], u[1], xq)
    else
      var r := InterpSorted(xq, u[1..]);
      assert forall i :: 1 <= i < |u| ==> u[i] == u[1..][i - 1];
      r
  }

  /** Some sample lies at or left of `xq` and some at or right of it. */
  ghost predicate InRange(xq: real, curve: seq<CurvePoint>) {
    && (exists i :: 0 <= i < |curve| && curve[i].x <= xq)
    && (exists j :: 0 <= j < |curve| && xq <= curve[j].x)
  }

  /** `v` is the straight-line value at `xq` between two samples that
      enclose `xq` with no sample strictly between their abscissae, and so
      lies between their ordinates. */
  ghost predicate Bracketed(v: real, xq: real, curve: seq<CurvePoint>) {
    exists i, j :: 0 <= i < |curve| && 0 <= j < |curve| && curve[i].x < xq < curve[j].x &&
      (forall k :: 0 <= k < |curve| ==> !(curve[i].x < curve[k].x < curve[j].x)) &&
      v == Lerp(curve[i], curve[j], xq) && Between(v, curve[i].y, curve[j].y)
  }

  /** `u` is what sorting `curve` by x and keeping one sample per abscissa
      gives: the de-duplication of some rearrangement of the curve that is
      ordered by x. */
  ghost predicate SampledFrom(curve: seq<CurvePoint>, u: seq<CurvePoint>) {
    exists sorted :: multiset(sorted) == multiset(curve) && NonDecreasingX(sorted) && DedupOf(sorted, u)
  }

  /** The sorted, de-duplicated samples `_interp_on_curve` hands to
      `np.interp`. */
  function Samples(curve: seq<CurvePoint>): (u: seq<CurvePoint>)
    requires |curve| > 0
    ensures |u| > 0 && StrictlyIncreasingX(u)
    ensures SampledFrom(curve, u)
  {
    var sorted := SortBy(curve, X);
    SortedByXNonDecreasing(sorted);
    var u := Dedup(sorted);
    SampledWitness(curve, sorted, u);
    u
  }

  lemma SampledWitness(curve: seq<CurvePoint>, sorted: seq<CurvePoint>, u: seq<CurvePoint>)
    requires multiset(sorted) == multiset(curve) && NonDecreasingX(sorted) && DedupOf(sorted, u)
    ensures SampledFrom(curve, u)
  {
  }

  /** `_interp_on_curve`: sort the samples by x, keep one sample per
      distinct x, reject a query outside the sampled range, interpolate.
      An empty curve fails on its first abscissa. */
  function InterpOnCurve(xq: real, curve: seq<CurvePoint>): (r: Result<real>)
    ensures |curve| == 0 <==> r.Err? && r.error == EmptyCurve
    ensures r.Err? ==> r.error == EmptyCurve || r.error == OutOfRange
    ensures |curve| > 0 ==> (r.Ok? <==> InRange(xq, curve))
    ensures r.Ok? && xq in Abscissae(curve) ==>
      exists i :: 0 <= i < |curve| && curve[i].x == xq && r.value == curve[i].y
    ensures r.Ok? && xq !in Abscissae(curve) ==> Bracketed(r.value, xq, curve)
  {
    if |curve| == 0 then Err(EmptyCurve)
    else
      var u := Samples(curve);
      SampledRange(curve, u, xq);
      if xq < u[0].x || xq > u[|u| - 1].x then Err(OutOfRange)
      else
        var v := InterpSorted(xq, u);
        InterpOnSamples(xq, curve, u, v);
        Ok(v)
  }

  lemma AbscissaeOfPermutation(a: seq<CurvePoint>, b: seq<CurvePoint>)
    requires multiset(a) == multiset(b)
    ensures Abscissae(a) == Abscissae(b)
  {
    forall x | x in Abscissae(a) ensures x in Abscissae(b) {
      var p :| p in a && p.x == x;
      assert p in multiset(b);
    }
    forall x | x in Abscissae(b) ensures x in Abscissae(a) {
      var p :| p in b && p.x == x;
      assert p in multiset(a);
    }
  }

  /** The de-duplicated sorted samples span exactly the sampled range. */
  lemma SampledRange(curve: seq<CurvePoint>, u: seq<CurvePoint>, xq: real)
    requires |curve| > 0 && SampledFrom(curve, u)
    ensures |u| > 0
    ensures InRange(xq, curve) <==> u[0].x <= xq <= u[|u| - 1].x
  {
    var sorted: seq<CurvePoint> :| multiset(sorted) == multiset(curve) && NonDecreasingX(sorted) && DedupOf(sorted, u);
    SortedRange(curve, sorted, u, xq);
  }

  lemma SortedRange(curve: seq<CurvePoint>, sorted: seq<CurvePoint>, u: seq<CurvePoint>, xq: real)
    requires |curve| > 0 && multiset(sorted) == multiset(curve) && NonDecreasingX(sorted)
    requires DedupOf(sorted, u)
    ensures |u| > 0
    ensures InRange(xq, curve) <==> u[0].x <= xq <= u[|u| - 1].x
  {
    var n := |sorted|;
    assert |sorted| == |curve| by { assert |multiset(sorted)| == |multiset(curve)|; }
    assert sorted[0] in multiset(curve) && sorted[n - 1] in multiset(curve);
    var i0 :| 0 <= i0 < |curve| && curve[i0] == sorted[0];
    var j0 :| 0 <= j0 < |curve| && curve[j0] == sorted[n - 1];
    if InRange(xq, curve) {
      var i :| 0 <= i < |curve| && curve[i].x <= xq;
      var j :| 0 <= j < |curve| && xq <= curve[j].x;
      assert curve[i] in multiset(sorted) && curve[j] in multiset(sorted);
      var ki :| 0 <= ki < n && sorted[ki] == curve[i];
      var kj :| 0 <= kj < n && sorted[kj] == curve[j];
      assert sorted[0].x <= sorted[ki].x;
      assert sorted[kj].x <= sorted[n - 1].x;
    }
  }

  /** What the interpolation needs of its samples: strictly increasing
      abscissae, every sample taken from the curve, every abscissa of the
      curve sampled. */
  ghost predicate DrawnFrom(curve: seq<CurvePoint>, u: seq<CurvePoint>) {
    && |u| > 0
    && StrictlyIncreasingX(u)
    && (forall j :: 0 <= j < |u| ==> u[j] in curve)
    && Abscissae(u) == Abscissae(curve)
  }

  lemma SampledDrawn(curve: seq<CurvePoint>, u: seq<CurvePoint>)
    requires |curve| > 0 && SampledFrom(curve, u)
    ensures DrawnFrom(curve, u)
  {
    var sorted: seq<CurvePoint> :| multiset(sorted) == multiset(curve) && NonDecreasingX(sorted) && DedupOf(sorted, u);
    AbscissaeOfPermutation(sorted, curve);
    forall j | 0 <= j < |u| ensures u[j] in curve {
      assert u[j] in multiset(curve);
    }
  }

  /** Hit and miss cases of the interpolation, carried back from the
      de-duplicated samples to the curve. */
  lemma InterpOnSamples(xq: real, curve: seq<CurvePoint>, u: seq<CurvePoint>, v: real)
    requires |curve| > 0 && SampledFrom(curve, u)
    requires |u| > 0 && u[0].x <= xq <= u[|u| - 1].x
    requires v == InterpSorted(xq, u)
    ensures xq in Abscissae(curve) ==>
      exists i :: 0 <= i < |curve| && curve[i].x == xq && v == curve[i].y
    ensures xq !in Abscissae(curve) ==> Bracketed(v, xq, curve)
  {
    SampledDrawn(curve, u);
    if xq in Abscissae(curve) {
      InterpHit(xq, curve, u, v);
    } else {
      InterpMiss(xq, curve, u, v);
    }
  }

  /** A query on a sampled abscissa returns that sample's ordinate. */
  lemma InterpHit(xq: real, curve: seq<CurvePoint>, u: seq<CurvePoint>, v: real)
    requires DrawnFrom(curve, u) && u[0].x <= xq <= u[|u| - 1].x
    requires v == InterpSorted(xq, u)
    requires xq in Abscissae(curve)
    ensures exists i :: 0 <= i < |curve| && curve[i].x == xq && v == curve[i].y
  {
    var p :| p in u && p.x == xq;
    var m :| 0 <= m < |u| && u[m] == p;
    assert u[m] in curve;
    var i :| 0 <= i < |curve| && curve[i] == u[m];
  }

  /** A query between samples lies between the two neighbouring samples,
      and no sample of the curve lies strictly between those. */
  lemma InterpMiss(xq: real, curve: seq<CurvePoint>, u: seq<CurvePoint>, v: real)
    requires DrawnFrom(curve, u) && u[0].x <= xq <= u[|u| - 1].x
    requires v == InterpSorted(xq, u)
    requires xq !in Abscissae(curve)
    ensures Bracketed(v, xq, curve)
  {
    MissNotSampled(curve, u, xq);
    var m :| 0 <= m < |u| - 1 && u[m].x < xq < u[m + 1].x &&
      v == Lerp(u[m], u[m + 1], xq) && Between(v, u[m].y, u[m + 1].y);
    assert u[m] in curve && u[m + 1] in curve;
    var i :| 0 <= i < |curve| && curve[i] == u[m];
    var j :| 0 <= j < |curve| && curve[j] == u[m + 1];
    NoSampleBetween(curve, u, m, i, j);
    BracketedBy(v, xq, curve, i, j);
  }

  lemma BracketedBy(v: real, xq: real, curve: seq<CurvePoint>, i: nat, j: nat)
    requires i < |curve| && j < |curve| && curve[i].x < xq < curve[j].x
    requires forall k :: 0 <= k < |curve| ==> !(curve[i].x < curve[k].x < curve[j].x)
    requires v == Lerp(curve[i], curve[j], xq) && Between(v, curve[i].y, curve[j].y)
    ensures Bracketed(v, xq, curve)
  {
  }

  lemma MissNotSampled(curve: seq<CurvePoint>, u: seq<CurvePoint>, xq: real)
    requires DrawnFrom(curve, u) && xq !in Abscissae(curve)
    ensures forall m :: 0 <= m < |u| ==> u[m].x != xq
  {
    forall m | 0 <= m < |u| ensures u[m].x != xq {
      assert u[m] in u;
    }
  }

  /** Consecutive samples leave no abscissa of the curve between them. */
  lemma NoSampleBetween(curve: seq<CurvePoint>, u: seq<CurvePoint>, m: nat, i: nat, j: nat)
    requires DrawnFrom(curve, u) && m + 1 < |u|
    requires i < |curve| && j < |curve| && curve[i] == u[m] && curve[j] == u[m + 1]
    ensures forall k :: 0 <= k < |curve| ==> !(curve[i].x < curve[k].x < curve[j].x)
  {
    forall k | 0 <= k < |curve| ensures !(curve[i].x < curve[k].x < curve[j].x) {
      assert curve[k] in curve;
      assert curve[k].x in Abscissae(u);
      var q :| q in u && q.x == curve[k].x;
      var l :| 0 <= l < |u| && u[l] == q;
      if l <= m {
        if l < m { assert u[l].x < u[m].x; }
      } else {
        if l > m + 1 { assert u[m + 1].x < u[l].x; }
      }
    }
  }

  /** Which side of the cut `clip_curve_at_x` keeps: `"left"` keeps the
      samples up to the cut, anything else the samples from the cut on. */
  datatype Side = Left | Right

  /** The clip mask: abscissae within the tolerance of the kept side. */
  predicate Kept(p: CurvePoint, xcut: real, side: Side) {
    match side
    case Left => p.x <= xcut + ClipTolerance
    case Right => p.x >= xcut - ClipTolerance
  }

  /** Boolean-mask selection: the kept samples, in their original order. */
  function KeepSide(s: seq<CurvePoint>, xcut: real, side: Side): (r: seq<CurvePoint>)
    ensures forall p :: multiset(r)[p] == if Kept(p, xcut, side) then multiset(s)[p] else 0
    ensures forall i :: 0 <= i < |r| ==> Kept(r[i], xcut, side)
    ensures NonDecreasingX(s) ==> NonDecreasingX(r)
    decreases |s|
  {
    if |s| == 0 then []
    else
      var t := KeepSide(s[..|s| - 1], xcut, side);
      var r := if Kept(s[|s| - 1], xcut, side) then t + [s[|s| - 1]] else t;
      KeepSideStep(s, t, r, xcut, side);
      r
  }

  /** One more sample: kept and appended, or dropped. */
  lemma KeepSideStep(s: seq<CurvePoint>, t: seq<CurvePoint>, r: seq<CurvePoint>, xcut: real, side: Side)
    requires |s| > 0
    requires forall p :: multiset(t)[p] == if Kept(p, xcut, side) then multiset(s[..|s| - 1])[p] else 0
    requires forall i :: 0 <= i < |t| ==> Kept(t[i], xcut, side)
    requires NonDecreasingX(s[..|s| - 1]) ==> NonDecreasingX(t)
    requires r == if Kept(s[|s| - 1], xcut, side) then t + [s[|s| - 1]] else t
    ensures forall p :: multiset(r)[p] == if Kept(p, xcut, side) then multiset(s)[p] else 0
    ensures forall i :: 0 <= i < |r| ==> Kept(r[i], xcut, side)
    ensures NonDecreasingX(s) ==> NonDecreasingX(r)
  {
    var last := s[|s| - 1];
    assert s == s[..|s| - 1] + [last];
    if Kept(last, xcut, side) {
      KeepSideSorted(s[..|s| - 1], last, t);
    }
  }

  lemma KeepSideSorted(p: seq<CurvePoint>, last: CurvePoint, t: seq<CurvePoint>)
    requires multiset(t) <= multiset(p)
    requires NonDecreasingX(p + [last]) ==> NonDecreasingX(t)
    ensures NonDecreasingX(p + [last]) ==> NonDecreasingX(t + [last])
  {
    if NonDecreasingX(p + [last]) {
      forall i, j | 0 <= i < j < |t + [last]| ensures (t + [last])[i].x <= (t + [last])[j].x {
        if j == |t| {
          assert t[i] in multiset(p);
          var k :| 0 <= k < |p| && p[k] == t[i];
          assert (p + [last])[k] == t[i] && (p + [last])[|p|] == last;
        } else {
          assert (t + [last])[i] == t[i] && (t + [last])[j] == t[j];
        }
      }
    }
  }

  /** `clip_curve_at_x`: interpolate the cut point, add it to the samples,
      sort by x and keep one side of the cut. Fails exactly when the
      interpolation does. */
  function ClipCurveAtX(curve: seq<CurvePoint>, xcut: real, side: Side): (r: Result<seq<CurvePoint>>)
    ensures r.Ok? <==> InterpOnCurve(xcut, curve).Ok?
    ensures r.Err? ==> r.error == InterpOnCurve(xcut, curve).error
    ensures r.Ok? ==> NonDecreasingX(r.value)
    ensures r.Ok? ==> forall i :: 0 <= i < |r.value| ==> Kept(r.value[i], xcut, side)
    ensures r.Ok? ==> CurvePoint(xcut, InterpOnCurve(xcut, curve).value) in r.value
    ensures r.Ok? ==> forall i :: 0 <= i < |curve| && Kept(curve[i], xcut, side) ==> curve[i] in r.value
    ensures r.Ok? ==> forall p :: multiset(r.value)[p] ==
                        if Kept(p, xcut, side)
                        then multiset(curve + [CurvePoint(xcut, InterpOnCurve(xcut, curve).value)])[p]
                        else 0
  {
    var ycut :- InterpOnCurve(xcut, curve);
    var cut := CurvePoint(xcut, ycut);
    var aug := SortBy(curve + [cut], X);
    SortedByXNonDecreasing(aug);
    var kept := KeepSide(aug, xcut, side);
    assert Kept(cut, xcut, side);
    assert multiset(kept)[cut] == multiset(curve + [cut])[cut] > 0;
    assert forall i :: 0 <= i < |curve| && Kept(curve[i], xcut, side) ==> multiset(kept)[curve[i]] > 0 by {
      forall i | 0 <= i < |curve| && Kept(curve[i], xcut, side) ensures multiset(kept)[curve[i]] > 0 {
        assert (curve + [cut])[i] == curve[i];
      }
    }
    Ok(kept)
  }

  ghost predicate NonIncreasingX(u: seq<CurvePoint>) {
    forall i, j :: 0 <= i < j < |u| ==> u[i].x >= u[j].x
  }

  /** `[::-1]`: element `i` of the result is element `n − 1 − i` of the
      input. */
  function Reverse<T>(s: seq<T>): (r: seq<T>)
    ensures |r| == |s|
    ensures forall i :: 0 <= i < |s| ==> r[i] == s[|s| - 1 - i]
    decreases |s|
  {
    if |s| == 0 then [] else Reverse(s[1..]) + [s[0]]
  }

  /** Reversing twice gives the sequence back. */
  lemma ReverseInvolutive<T>(s: seq<T>)
    ensures Reverse(Reverse(s)) == s
  {
  }

  lemma ReversePermutes<T>(s: seq<T>)
    ensures multiset(Reverse(s)) == multiset(s)
    decreases |s|
  {
    if |s| > 0 {
      ReversePermutes(s[1..]);
      assert s == [s[0]] + s[1..];
    }
  }

  /** The upper chain of the contour: the upper curve clipped left of the
      spar and reversed, so it runs from the spar towards the leading
      edge. Its first sample is its rightmost, no further than the
      tolerance past the cut and not before the cut. */
  function UpperChain(upper: seq<CurvePoint>, xcut: real): (r: Result<seq<CurvePoint>>)
    ensures r.Ok? <==> InterpOnCurve(xcut, upper).Ok?
    ensures r.Ok? ==> NonIncreasingX(r.value)
    ensures r.Ok? ==> |r.value| > 0 && xcut <= r.value[0].x <= xcut + ClipTolerance
    ensures r.Ok? ==> multiset(r.value) == multiset(ClipCurveAtX(upper, xcut, Left).value)
  {
    var left :- ClipCurveAtX(upper, xcut, Left);
    ReversedChain(left, CurvePoint(xcut, InterpOnCurve(xcut, upper).value), xcut);
    Ok(Reverse(left))
  }

  lemma ReversedChain(left: seq<CurvePoint>, cut: CurvePoint, xcut: real)
    requires NonDecreasingX(left) && cut in left && cut.x == xcut
    requires forall i :: 0 <= i < |left| ==> Kept(left[i], xcut, Left)
    ensures NonIncreasingX(Reverse(left))
    ensures |Reverse(left)| > 0 && xcut <= Reverse(left)[0].x <= xcut + ClipTolerance
    ensures multiset(Reverse(left)) == multiset(left)
  {
    var r := Reverse(left);
    ReversePermutes(left);
    var k :| 0 <= k < |left| && left[k] == cut;
    assert left[k].x <= left[|left| - 1].x;
    assert left[|left| - 1] == r[0];
    assert Kept(left[|left| - 1], xcut, Left);
    forall i, j | 0 <= i < j < |r| ensures r[i].x >= r[j].x {
      assert r[i] == left[|left| - 1 - i] && r[j] == left[|left| - 1 - j];
    }
  }

  /** A non-negative `d` with d² = dx² + dy² is the Euclidean length of the
      segment from `a` to `b` (`np.sqrt` of `dx² + dy²`, given as input). */
  ghost predicate IsSegmentLength(d: real, a: CurvePoint, b: CurvePoint) {
    d >= 0.0 && d * d == (b.x - a.x) * (b.x - a.x) + (b.y - a.y) * (b.y - a.y)
  }

  /** Number of segments `np.diff` produces for `n` samples. */
  function SegmentCount(n: nat): nat {
    if n == 0 then 0 else n - 1
  }

  /** Arc lengths at the samples of a chain: 0, then the running sum of
      the segment lengths; non-decreasing when no length is negative. */
  function ArcLengths(lens: seq<real>): (s: seq<real>)
    ensures |s| == |lens| + 1
    ensures s[0] == 0.0
    ensures forall k :: 0 <= k < |lens| ==> s[k + 1] - s[k] == lens[k]
    ensures (forall k :: 0 <= k < |lens| ==> lens[k] >= 0.0) ==>
              forall i, j :: 0 <= i <= j < |s| ==> s[i] <= s[j]
    ensures s[|s| - 1] == Sum(lens)
  {
    var s := [0.0] + CumSum(lens);
    ArcLengthsArePrefixSums(lens, s);
    ArcLengthsMonotone(lens, s);
    s
  }

  lemma ArcLengthsArePrefixSums(lens: seq<real>, s: seq<real>)
    requires s == [0.0] + CumSum(lens)
    ensures forall k :: 0 <= k < |s| ==> s[k] == Sum(lens[..k])
  {
    forall k | 0 <= k < |s| ensures s[k] == Sum(lens[..k]) {
      if k > 0 { assert s[k] == CumSum(lens)[k - 1]; }
    }
  }

  lemma ArcLengthsMonotone(lens: seq<real>, s: seq<real>)
    requires |s| == |lens| + 1
    requires forall k :: 0 <= k < |s| ==> s[k] == Sum(lens[..k])
    ensures s[|s| - 1] == Sum(lens)
    ensures (forall k :: 0 <= k < |lens| ==> lens[k] >= 0.0) ==>
              forall i, j :: 0 <= i <= j < |s| ==> s[i] <= s[j]
  {
    assert lens[..|lens|] == lens;
    if forall k :: 0 <= k < |lens| ==> lens[k] >= 0.0 {
      forall i, j | 0 <= i <= j < |s| ensures s[i] <= s[j] {
        SumPrefixMonotone(lens, i, j);
      }
    }
  }

  /** `cumulative_s`: 0 followed by the running sum of the segment lengths,
      one arc length per sample. An empty curve still yields the single arc
      length 0. */
  function CumulativeS(pts: seq<CurvePoint>, lens: seq<real>): (s: seq<real>)
    requires |lens| == SegmentCount(|pts|)
    requires forall k :: 0 <= k < |lens| ==> IsSegmentLength(lens[k], pts[k], pts[k + 1])
    ensures |s| == if |pts| == 0 then 1 else |pts|
    ensures s[0] == 0.0
    ensures forall k :: 0 <= k < |lens| ==> s[k + 1] - s[k] == lens[k]
    ensures forall i, j :: 0 <= i <= j < |s| ==> s[i] <= s[j]
    ensures s[|s| - 1] == Sum(lens)
  {
    assert forall k :: 0 <= k < |lens| ==> lens[k] >= 0.0 by {
      forall k | 0 <= k < |lens| ensures lens[k] >= 0.0 {
        assert IsSegmentLength(lens[k], pts[k], pts[k + 1]);
      }
    }
    ArcLengths(lens)
  }
}

=== FILE: integrals.dfy ===
/** Midpoint-rule line integrals over a thin wall: each segment contributes
    its integrand at the midpoint times its length `ds`. */
module Integrals {
  import opened RealArith
  import opened RealSums

  /** A wall segment: midpoint and length. */
  datatype Segment = Segment(xm: real, ym: real, ds: real)

  /** The integrands the section properties need; `cx`, `cy` are the
      reference point the moments are taken about. `Positive` is the
      indicator of a segment of positive length: its total counts them. */
  datatype Integrand =
    | Length
    | MomentX
    | MomentY
    | OffsetX(cx: real)
    | OffsetY(cy: real)
    | SquareX(cx: real)
    | SquareY(cy: real)
    | ProductXY(cx: real, cy: real)
    | Positive

  /** Contribution of one segment. */
  function Weigh(w: Integrand, g: Segment): real {
    match w
    case Length => g.ds
    case MomentX => g.xm * g.ds
    case MomentY => g.ym * g.ds
    case OffsetX(cx) => (g.xm - cx) * g.ds
    case OffsetY(cy) => (g.ym - cy) * g.ds
    case SquareX(cx) => g.ds * ((g.xm - cx) * (g.xm - cx))
    case SquareY(cy) => g.ds * ((g.ym - cy) * (g.ym - cy))
    case ProductXY(cx, cy) => g.ds * (g.xm - cx) * (g.ym - cy)
    case Positive => if g.ds > 0.0 then 1.0 else 0.0
  }

  /** `(integrand * ds).sum()` over the segments. */
  function Total(segs: seq<Segment>, w: Integrand): real
    decreases |segs|
  {
    if |segs| == 0 then 0.0 else Total(segs[..|segs| - 1], w) + Weigh(w, segs[|segs| - 1])
  }

  ghost predicate LengthsNonNegative(segs: seq<Segment>) {
    forall k :: 0 <= k < |segs| ==> segs[k].ds >= 0.0
  }

  lemma TotalSingle(g: Segment, w: Integrand)
    ensures Total([g], w) == Weigh(w, g)
  {
    assert [g][..0] == [];
  }

  /** Sums split over concatenation. */
  lemma {:induction false} TotalAppend(a: seq<Segment>, b: seq<Segment>, w: Integrand)
    ensures Total(a + b, w) == Total(a, w) + Total(b, w)
    decreases |b|
  {
    if |b| == 0 {
      assert a + b == a;
    } else {
      assert (a + b)[..|a + b| - 1] == a + b[..|b| - 1];
      TotalAppend(a, b[..|b| - 1], w);
    }
  }

  /** A segment of zero length contributes nothing to any integral. */
  lemma WeighZeroLength(w: Integrand, g: Segment)
    requires g.ds == 0.0
    ensures Weigh(w, g) == 0.0
  {
  }

  /** Moments about a point are moments about the origin minus the point
      times the length: Σ (xm − cx)·ds = Σ xm·ds − cx·Σ ds. */
  lemma TotalOffset(segs: seq<Segment>, cx: real, cy: real)
    ensures Total(segs, OffsetX(cx)) == Total(segs, MomentX) - cx * Total(segs, Length)
    ensures Total(segs, OffsetY(cy)) == Total(segs, MomentY) - cy * Total(segs, Length)
  {
    TotalOffsetX(segs, cx);
    TotalOffsetY(segs, cy);
  }

  lemma TotalOffsetX(segs: seq<Segment>, cx: real)
    ensures Total(segs, OffsetX(cx)) == Total(segs, MomentX) - cx * Total(segs, Length)
  {
    OffsetDiffersX(segs, cx);
    TotalIsSum(segs, OffsetX(cx));
    TotalIsSum(segs, MomentX);
    TotalIsSum(segs, Length);
    SumDifference(Weights(segs, OffsetX(cx)), Weights(segs, MomentX), Weights(segs, Length),
                  cx, Total(segs, MomentX), Total(segs, Length));
  }

  lemma TotalOffsetY(segs: seq<Segment>, cy: real)
    ensures Total(segs, OffsetY(cy)) == Total(segs, MomentY) - cy * Total(segs, Length)
  {
    OffsetDiffersY(segs, cy);
    TotalIsSum(segs, OffsetY(cy));
    TotalIsSum(segs, MomentY);
    TotalIsSum(segs, Length);
    SumDifference(Weights(segs, OffsetY(cy)), Weights(segs, MomentY), Weights(segs, Length),
                  cy, Total(segs, MomentY), Total(segs, Length));
  }

  lemma OffsetDiffersX(segs: seq<Segment>, cx: real)
    ensures Differs(Weights(segs, OffsetX(cx)), Weights(segs, MomentX), Weights(segs, Length), cx)
  {
    forall i | 0 <= i < |segs| ensures Weigh(OffsetX(cx), segs[i]) == Weigh(MomentX, segs[i]) - cx * Weigh(Length, segs[i]) {
      OffsetTerm(segs[i].xm, segs[i].ds, cx);
    }
  }

  lemma OffsetDiffersY(segs: seq<Segment>, cy: real)
    ensures Differs(Weights(segs, OffsetY(cy)), Weights(segs, MomentY), Weights(segs, Length), cy)
  {
    forall i | 0 <= i < |segs| ensures Weigh(OffsetY(cy), segs[i]) == Weigh(MomentY, segs[i]) - cy * Weigh(Length, segs[i]) {
      OffsetTerm(segs[i].ym, segs[i].ds, cy);
    }
  }

  lemma OffsetTerm(v: real, ds: real, c: real)
    ensures (v - c) * ds == v * ds - c * ds
  {
  }

  /** With no negative length, the second moments are non-negative. */
  lemma {:induction false} SquaresNonNegative(segs: seq<Segment>, cx: real, cy: real)
    requires LengthsNonNegative(segs)
    ensures Total(segs, SquareX(cx)) >= 0.0
    ensures Total(segs, SquareY(cy)) >= 0.0
    decreases |segs|
  {
    if |segs| > 0 {
      var g := segs[|segs| - 1];
      SquaresNonNegative(segs[..|segs| - 1], cx, cy);
      SquareNonNegative(g.xm - cx);
      SquareNonNegative(g.ym - cy);
      MulNonNegative(g.ds, (g.xm - cx) * (g.xm - cx));
      MulNonNegative(g.ds, (g.ym - cy) * (g.ym - cy));
    }
  }

  /** The contributions of the segments, one per segment. */
  function Weights(segs: seq<Segment>, w: Integrand): (a: seq<real>)
    ensures |a| == |segs|
    ensures forall i :: 0 <= i < |segs| ==> a[i] == Weigh(w, segs[i])
  {
    seq(|segs|, i requires 0 <= i < |segs| => Weigh(w, segs[i]))
  }

  /** The integral is the sum of the contributions. */
  lemma {:induction false} TotalIsSum(segs: seq<Segment>, w: Integrand)
    ensures Total(segs, w) == Sum(Weights(segs, w))
    decreases |segs|
  {
    if |segs| > 0 {
      var n := |segs| - 1;
      TotalIsSum(segs[..n], w);
      assert Weights(segs, w)[..n] == Weights(segs[..n], w);
    }
  }

  /** ds·((xm − cx) − l·(ym − cy))² for one segment. */
  function ResidualTerm(g: Segment, cx: real, cy: real, l: real): real {
    var e := (g.xm - cx) - l * (g.ym - cy);
    g.ds * (e * e)
  }

  function ResidualTerms(segs: seq<Segment>, cx: real, cy: real, l: real): (a: seq<real>)
    ensures |a| == |segs|
    ensures forall i :: 0 <= i < |segs| ==> a[i] == ResidualTerm(segs[i], cx, cy, l)
  {
    seq(|segs|, i requires 0 <= i < |segs| => ResidualTerm(segs[i], cx, cy, l))
  }

  /** Σ ds·((xm − cx) − l·(ym − cy))², a sum of non-negative terms used to
      bound the product moment. */
  function Residual(segs: seq<Segment>, cx: real, cy: real, l: real): real {
    Sum(ResidualTerms(segs, cx, cy, l))
  }

  lemma ExpandTerm(d: real, a: real, b: real, l: real)
    ensures d * ((a - l * b) * (a - l * b)) == d * (a * a) - 2.0 * l * (d * a * b) + l * l * (d * (b * b))
  {
  }

  /** One segment's residual term as a quadratic in l. */
  lemma TermExpansion(g: Segment, cx: real, cy: real, l: real)
    ensures ResidualTerm(g, cx, cy, l) ==
      Weigh(SquareX(cx), g) - 2.0 * l * Weigh(ProductXY(cx, cy), g) + l * l * Weigh(SquareY(cy), g)
  {
    ExpandTerm(g.ds, g.xm - cx, g.ym - cy, l);
  }

  /** The residual is a quadratic in l whose coefficients are the second
      moments. */
  lemma ResidualExpansion(segs: seq<Segment>, cx: real, cy: real, l: real)
    ensures Residual(segs, cx, cy, l) ==
      Total(segs, SquareX(cx)) - 2.0 * l * Total(segs, ProductXY(cx, cy)) + l * l * Total(segs, SquareY(cy))
  {
    var r := ResidualTerms(segs, cx, cy, l);
    var a, b, c := Weights(segs, SquareX(cx)), Weights(segs, ProductXY(cx, cy)), Weights(segs, SquareY(cy));
    var sa, sb, sc := Total(segs, SquareX(cx)), Total(segs, ProductXY(cx, cy)), Total(segs, SquareY(cy));
    ResidualCombines(segs, cx, cy, l);
    TotalIsSum(segs, SquareX(cx));
    TotalIsSum(segs, ProductXY(cx, cy));
    TotalIsSum(segs, SquareY(cy));
    SumCombination(r, a, b, c, 2.0 * l, l * l, sa, sb, sc);
  }

  lemma ResidualCombines(segs: seq<Segment>, cx: real, cy: real, l: real)
    ensures Combines(ResidualTerms(segs, cx, cy, l),
                     Weights(segs, SquareX(cx)), Weights(segs, ProductXY(cx, cy)), Weights(segs, SquareY(cy)),
                     2.0 * l, l * l)
  {
    var r := ResidualTerms(segs, cx, cy, l);
    var a := Weights(segs, SquareX(cx));
    var b := Weights(segs, ProductXY(cx, cy));
    var c := Weights(segs, SquareY(cy));
    forall i | 0 <= i < |segs| ensures r[i] == a[i] - 2.0 * l * b[i] + l * l * c[i] {
      ResidualCombinesAt(segs, cx, cy, l, i);
    }
  }

  lemma ResidualCombinesAt(segs: seq<Segment>, cx: real, cy: real, l: real, i: nat)
    requires i < |segs|
    ensures ResidualTerms(segs, cx, cy, l)[i] ==
      Weights(segs, SquareX(cx))[i] - 2.0 * l * Weights(segs, ProductXY(cx, cy))[i] + l * l * Weights(segs, SquareY(cy))[i]
  {
    TermExpansion(segs[i], cx, cy, l);
  }

  lemma ResidualNonNegative(segs: seq<Segment>, cx: real, cy: real, l: real)
    requires LengthsNonNegative(segs)
    ensures Residual(segs, cx, cy, l) >= 0.0
  {
    var r := ResidualTerms(segs, cx, cy, l);
    forall i | 0 <= i < |r| ensures r[i] >= 0.0 {
      var g := segs[i];
      var e := (g.xm - cx) - l * (g.ym - cy);
      SquareNonNegative(e);
      MulNonNegative(g.ds, e * e);
    }
    SumNonNegative(r);
  }

  /** Cauchy–Schwarz for the length-weighted sums: the squared product
      moment is at most the product of the two second moments. */
  lemma CauchySchwarz(segs: seq<Segment>, cx: real, cy: real)
    requires LengthsNonNegative(segs)
    ensures SquareBelow(Total(segs, ProductXY(cx, cy)), Total(segs, SquareX(cx)), Total(segs, SquareY(cy)))
  {
    var sxx := Total(segs, SquareX(cx));
    var syy := Total(segs, SquareY(cy));
    var sxy := Total(segs, ProductXY(cx, cy));
    SquaresNonNegative(segs, cx, cy);
    var l := if syy > 0.0 then sxy / syy else if sxy != 0.0 then (sxx + 1.0) / (2.0 * sxy) else 0.0;
    ResidualExpansion(segs, cx, cy, l);
    ResidualNonNegative(segs, cx, cy, l);
    DiscriminantBound(sxx, sxy, syy, l);
  }

  /** A quadratic a − 2lb + l²c that is non-negative at the l below has
      b² ≤ ac: at its minimum when c > 0, and anywhere when c = 0 forces
      b = 0. */
  lemma DiscriminantBound(a: real, b: real, c: real, l: real)
    requires a >= 0.0 && c >= 0.0
    requires l == if c > 0.0 then b / c else if b != 0.0 then (a + 1.0) / (2.0 * b) else 0.0
    requires a - 2.0 * l * b + l * l * c >= 0.0
    ensures SquareBelow(b, a, c)
  {
    if c > 0.0 {
      assert l * c == b;
      assert l * l * c == l * b;
      assert a - l * b >= 0.0;
      MulNonNegative(a - l * b, c);
      assert (a - l * b) * c == a * c - b * (l * c);
    } else if b != 0.0 {
      assert false;
    }
  }
}

=== FILE: panels.dfy ===
/** The panelizer: the contour table sorted by group (upper, lower, spar)
    and arc length, differenced group by group, and reduced to the rows of
    positive length. Each panel keeps the index of its row in the sorted
    table and the segment angle, which `atan2` computes from the row's
    coordinate steps; `atan2` is a parameter of the model. */
module Panels {
  import opened Sorting
  import opened Contour
  import opened Integrals
  import opened Section

  /** One panel: the index of its row, its group, midpoint, length and
      angle. */
  datatype Panel = Panel(index: nat, group: Group, xm: real, ym: real, ds: real, theta: real)

  /** The panel made of row `k`. */
  function PanelOfRow(k: nat, r: Row, atan2: (real, real) -> real): Panel {
    Panel(k, r.point.group, r.xm, r.ym, r.ds, atan2(r.dy, r.dx))
  }

  /** Row indices of a panel list. */
  function Indices(ps: seq<Panel>): set<nat> {
    set p | p in ps :: p.index
  }

  /** The rows of positive length. */
  function PositiveRows(rows: seq<Row>): set<nat> {
    set k | 0 <= k < |rows| && rows[k].ds > 0.0
  }

  /** The contract of KeepPositive. */
  ghost predicate KeptFrom(rows: seq<Row>, ps: seq<Panel>, atan2: (real, real) -> real) {
    && (forall i :: 0 <= i < |ps| ==> ps[i].index < |rows| && ps[i] == PanelOfRow(ps[i].index, rows[ps[i].index], atan2))
    && (forall i, j :: 0 <= i < j < |ps| ==> ps[i].index < ps[j].index)
    && Indices(ps) == PositiveRows(rows)
  }

  /** `df.loc[df["ds"] > 0]`: exactly the rows of positive length, in table
      order, each turned into its panel. */
  function KeepPositive(rows: seq<Row>, atan2: (real, real) -> real): (ps: seq<Panel>)
    ensures forall i :: 0 <= i < |ps| ==> ps[i].ds > 0.0
    ensures forall i :: 0 <= i < |ps| ==>
      ps[i].index < |rows| && ps[i] == PanelOfRow(ps[i].index, rows[ps[i].index], atan2)
    ensures forall i, j :: 0 <= i < j < |ps| ==> ps[i].index < ps[j].index
    ensures Indices(ps) == PositiveRows(rows)
    decreases |rows|
  {
    if |rows| == 0 then []
    else
      var n := |rows| - 1;
      var prev := KeepPositive(rows[..n], atan2);
      var ps := if rows[n].ds > 0.0 then prev + [PanelOfRow(n, rows[n], atan2)] else prev;
      KeepStep(rows, prev, ps, atan2);
      ps
  }

  lemma PositiveRowsSnoc(rows: seq<Row>)
    requires |rows| > 0
    ensures PositiveRows(rows) == PositiveRows(rows[..|rows| - 1]) + (if rows[|rows| - 1].ds > 0.0 then {|rows| - 1} else {})
  {
    var n := |rows| - 1;
    var p := rows[..n];
    forall k | k in PositiveRows(rows) ensures k in PositiveRows(p) + (if rows[n].ds > 0.0 then {n} else {}) {
      if k < n { assert p[k] == rows[k]; }
    }
    forall k | k in PositiveRows(p) ensures k in PositiveRows(rows) {
      assert p[k] == rows[k];
    }
  }

  lemma IndicesSnoc(prev: seq<Panel>, q: Panel)
    ensures Indices(prev + [q]) == Indices(prev) + {q.index}
  {
    forall k | k in Indices(prev + [q]) ensures k in Indices(prev) + {q.index} {
      var r :| r in prev + [q] && r.index == k;
      if r != q { assert r in prev; }
    }
    forall k | k in Indices(prev) ensures k in Indices(prev + [q]) {
      var r :| r in prev && r.index == k;
      assert r in prev + [q];
    }
  }

  lemma KeepStep(rows: seq<Row>, prev: seq<Panel>, ps: seq<Panel>, atan2: (real, real) -> real)
    requires |rows| > 0
    requires KeptFrom(rows[..|rows| - 1], prev, atan2)
    requires ps == if rows[|rows| - 1].ds > 0.0 then prev + [PanelOfRow(|rows| - 1, rows[|rows| - 1], atan2)] else prev
    ensures KeptFrom(rows, ps, atan2)
    ensures forall i :: 0 <= i < |ps| ==> ps[i].ds > 0.0
  {
    PositiveRowsSnoc(rows);
    KeptPrefix(rows, prev, atan2);
    if rows[|rows| - 1].ds > 0.0 {
      IndicesSnoc(prev, PanelOfRow(|rows| - 1, rows[|rows| - 1], atan2));
    }
    KeepStepPositive(rows, prev, ps, atan2);
  }

  /** The panels kept from a prefix are panels of the whole table. */
  lemma KeptPrefix(rows: seq<Row>, prev: seq<Panel>, atan2: (real, real) -> real)
    requires |rows| > 0
    requires KeptFrom(rows[..|rows| - 1], prev, atan2)
    ensures forall i :: 0 <= i < |prev| ==>
      prev[i].index < |rows| - 1 && prev[i] == PanelOfRow(prev[i].index, rows[prev[i].index], atan2)
  {
    var p := rows[..|rows| - 1];
    forall i | 0 <= i < |prev| ensures prev[i].index < |p| && rows[prev[i].index] == p[prev[i].index] {
    }
  }

  lemma KeepStepPositive(rows: seq<Row>, prev: seq<Panel>, ps: seq<Panel>, atan2: (real, real) -> real)
    requires |rows| > 0
    requires KeptFrom(rows[..|rows| - 1], prev, atan2)
    requires ps == if rows[|rows| - 1].ds > 0.0 then prev + [PanelOfRow(|rows| - 1, rows[|rows| - 1], atan2)] else prev
    ensures forall i :: 0 <= i < |ps| ==> ps[i].ds > 0.0
  {
    var p := rows[..|rows| - 1];
    forall i | 0 <= i < |ps| ensures ps[i].ds > 0.0 {
      if i < |prev| {
        assert ps[i] == prev[i];
        assert prev[i].index in PositiveRows(p) by { assert prev[i] in prev; }
      }
    }
  }

  /** Points `k − 1` and `k` of `f` are consecutive points of one group
      with a rise in arc length. */
  ghost predicate RisingStep(f: seq<ContourPoint>, k: int) {
    0 < k < |f| && f[k - 1].group == f[k].group && f[k - 1].s < f[k].s
  }

  /** The positions of `f` that end a rising step. */
  ghost function RisingSteps(f: seq<ContourPoint>): set<nat> {
    set k: nat | k < |f| && RisingStep(f, k)
  }

  /** Panel `p` is the segment from point `p.index − 1` to point `p.index`
      of `f`: its group, length, midpoint and the angle of its chord. */
  ghost predicate Spans(p: Panel, f: seq<ContourPoint>, atan2: (real, real) -> real) {
    && RisingStep(f, p.index)
    && p.group == f[p.index].group
    && p.ds == f[p.index].s - f[p.index - 1].s
    && p.xm == 0.5 * (f[p.index].x + f[p.index - 1].x)
    && p.ym == 0.5 * (f[p.index].y + f[p.index - 1].y)
    && p.theta == atan2(f[p.index].y - f[p.index - 1].y, f[p.index].x - f[p.index - 1].x)
  }

  /** The groups of the panels come in the order `o` ranks them. */
  ghost predicate GroupsRanked(ps: seq<Panel>, o: seq<Group>) {
    forall i, j :: 0 <= i < j < |ps| && ps[i].group in o && ps[j].group in o ==>
      Rank(o, ps[i].group) <= Rank(o, ps[j].group)
  }

  /** `gen_panels`: sort with the categorical ranking, difference, keep the
      rows of positive length. The panels are the segments between
      consecutive points of a group of the sorted table whose arc length
      rises, one for each such step, in table order; so the upper panels
      come first, then the lower ones, then the spar. */
  function GenPanels(pts: seq<ContourPoint>, atan2: (real, real) -> real): (ps: seq<Panel>)
    ensures forall i :: 0 <= i < |ps| ==> Spans(ps[i], SortedFrame(pts, PanelOrder), atan2)
    ensures forall i, j :: 0 <= i < j < |ps| ==> ps[i].index < ps[j].index
    ensures Indices(ps) == RisingSteps(SortedFrame(pts, PanelOrder))
    ensures GroupsRanked(ps, PanelOrder)
  {
    RankingsAreGroupOrders();
    var f := SortedFrame(pts, PanelOrder);
    var ps := KeepPositive(Rows(f), atan2);
    PanelsSpanSteps(f, ps, atan2);
    ps
  }

  /** The panels kept from a table sorted in the panel order are its rising
      steps, in order. */
  lemma PanelsSpanSteps(f: seq<ContourPoint>, ps: seq<Panel>, atan2: (real, real) -> real)
    requires forall i :: 0 <= i < |f| ==> f[i].group in PanelOrder
    requires OrderedBy(f, PanelOrder)
    requires KeptFrom(Rows(f), ps, atan2)
    ensures forall i :: 0 <= i < |ps| ==> Spans(ps[i], f, atan2)
    ensures Indices(ps) == RisingSteps(f)
    ensures GroupsRanked(ps, PanelOrder)
  {
    OrderedContiguous(f, PanelOrder);
    PositiveRowsRise(f);
    KeptSpans(f, ps, atan2);
    SpansRanked(f, ps, atan2, PanelOrder);
  }

  /** In a table whose groups are contiguous, the rows of positive length
      are those that end a rising step. */
  lemma PositiveRowsRise(f: seq<ContourPoint>)
    requires GroupsContiguous(f)
    ensures PositiveRows(Rows(f)) == RisingSteps(f)
  {
    forall k | 0 <= k < |f| ensures Rows(f)[k].ds > 0.0 <==> RisingStep(f, k) {
      RowsLocal(f, k);
    }
  }

  /** Each kept panel spans the step its row ends. */
  lemma KeptSpans(f: seq<ContourPoint>, ps: seq<Panel>, atan2: (real, real) -> real)
    requires GroupsContiguous(f)
    requires KeptFrom(Rows(f), ps, atan2)
    requires PositiveRows(Rows(f)) == RisingSteps(f)
    ensures forall i :: 0 <= i < |ps| ==> Spans(ps[i], f, atan2)
  {
    forall i | 0 <= i < |ps| ensures Spans(ps[i], f, atan2) {
      assert ps[i] in ps;
      PanelSpans(f, ps[i], atan2);
    }
  }

  lemma PanelSpans(f: seq<ContourPoint>, p: Panel, atan2: (real, real) -> real)
    requires GroupsContiguous(f)
    requires p.index in RisingSteps(f)
    requires p == PanelOfRow(p.index, Rows(f)[p.index], atan2)
    ensures Spans(p, f, atan2)
  {
    var k := p.index;
    RowsLocal(f, k);
    var row := Rows(f)[k];
    assert RisingStep(f, k);
    SpansFrom(p, f, atan2, row);
  }

  lemma SpansFrom(p: Panel, f: seq<ContourPoint>, atan2: (real, real) -> real, row: Row)
    requires RisingStep(f, p.index)
    requires p == PanelOfRow(p.index, row, atan2)
    requires row.point == f[p.index]
    requires row.ds == f[p.index].s - f[p.index - 1].s
    requires row.dx == f[p.index].x - f[p.index - 1].x && row.dy == f[p.index].y - f[p.index - 1].y
    requires row.xm == 0.5 * (f[p.index].x + f[p.index - 1].x) && row.ym == 0.5 * (f[p.index].y + f[p.index - 1].y)
    ensures Spans(p, f, atan2)
  {
  }

  /** Panels that span steps of a table sorted by `o`, in table order,
      keep the group order. */
  lemma SpansRanked(f: seq<ContourPoint>, ps: seq<Panel>, atan2: (real, real) -> real, o: seq<Group>)
    requires forall i :: 0 <= i < |f| ==> f[i].group in o
    requires OrderedBy(f, o)
    requires forall i :: 0 <= i < |ps| ==> Spans(ps[i], f, atan2)
    requires forall i, j :: 0 <= i < j < |ps| ==> ps[i].index < ps[j].index
    ensures GroupsRanked(ps, o)
  {
    forall i, j | 0 <= i < j < |ps| && ps[i].group in o && ps[j].group in o
      ensures Rank(o, ps[i].group) <= Rank(o, ps[j].group)
    {
      assert Spans(ps[i], f, atan2) && Spans(ps[j], f, atan2);
    }
  }

  function PanelSegment(p: Panel): Segment {
    Segment(p.xm, p.ym, p.ds)
  }

  function PanelSegments(ps: seq<Panel>): (segs: seq<Segment>)
    ensures |segs| == |ps|
    ensures forall i :: 0 <= i < |ps| ==> segs[i] == PanelSegment(ps[i])
  {
    seq(|ps|, i requires 0 <= i < |ps| => PanelSegment(ps[i]))
  }

  lemma PanelSegmentsAppend(a: seq<Panel>, b: seq<Panel>)
    ensures PanelSegments(a + b) == PanelSegments(a) + PanelSegments(b)
  {
    assert forall i :: 0 <= i < |a + b| ==> PanelSegments(a + b)[i] == (PanelSegments(a) + PanelSegments(b))[i];
  }

  /** Dropping rows of zero length changes no integral: over rows whose
      `ds` are not negative, the panels integrate to what the rows do. */
  lemma {:induction false} KeepPositiveTotal(rows: seq<Row>, atan2: (real, real) -> real, w: Integrand)
    requires forall k :: 0 <= k < |rows| ==> rows[k].ds >= 0.0
    ensures Total(PanelSegments(KeepPositive(rows, atan2)), w) == Total(RowSegments(rows), w)
    decreases |rows|
  {
    if |rows| > 0 {
      var n := |rows| - 1;
      var prev := KeepPositive(rows[..n], atan2);
      KeepPositiveTotal(rows[..n], atan2, w);
      RowsTotalSnoc(rows, w);
      if rows[n].ds > 0.0 {
        var q := PanelOfRow(n, rows[n], atan2);
        assert KeepPositive(rows, atan2) == prev + [q];
        PanelsTotalSnoc(prev, q, w);
      } else {
        assert KeepPositive(rows, atan2) == prev;
        WeighZeroLength(w, RowSegment(rows[n]));
      }
    }
  }

  /** There are as many panels as rows of positive length. */
  lemma {:induction false} KeepPositiveCount(rows: seq<Row>, atan2: (real, real) -> real)
    ensures |KeepPositive(rows, atan2)| as real == Total(RowSegments(rows), Positive)
    decreases |rows|
  {
    if |rows| > 0 {
      var n := |rows| - 1;
      var prev := KeepPositive(rows[..n], atan2);
      KeepPositiveCount(rows[..n], atan2);
      RowsTotalSnoc(rows, Positive);
      if rows[n].ds > 0.0 {
        assert KeepPositive(rows, atan2) == prev + [PanelOfRow(n, rows[n], atan2)];
      } else {
        assert KeepPositive(rows, atan2) == prev;
      }
    }
  }

  lemma RowsTotalSnoc(rows: seq<Row>, w: Integrand)
    requires |rows| > 0
    ensures Total(RowSegments(rows), w)
         == Total(RowSegments(rows[..|rows| - 1]), w) + Weigh(w, RowSegment(rows[|rows| - 1]))
  {
    var n := |rows| - 1;
    assert rows == rows[..n] + [rows[n]];
    RowSegmentsAppend(rows[..n], [rows[n]]);
    RowSegmentsSingle(rows[n]);
    TotalAppend(RowSegments(rows[..n]), [RowSegment(rows[n])], w);
    TotalSingle(RowSegment(rows[n]), w);
  }

  lemma PanelsTotalSnoc(ps: seq<Panel>, q: Panel, w: Integrand)
    ensures Total(PanelSegments(ps + [q]), w) == Total(PanelSegments(ps), w) + Weigh(w, PanelSegment(q))
  {
    PanelSegmentsAppend(ps, [q]);
    assert PanelSegments([q]) == [PanelSegment(q)];
    TotalAppend(PanelSegments(ps), [PanelSegment(q)], w);
    TotalSingle(PanelSegment(q), w);
  }

  /** The panels carry the same wall as the section-property script's
      segments: every integral over the panels equals the one over the
      label-sorted table. */
  lemma PanelsIntegrateLikeSection(pts: seq<ContourPoint>, atan2: (real, real) -> real, w: Integrand)
    ensures Total(PanelSegments(GenPanels(pts, atan2)), w) == Total(SectionSegments(pts), w)
  {
    var f := SortedFrame(pts, PanelOrder);
    RankingsAreGroupOrders();
    SortedRowsNonNegative(f, PanelOrder);
    KeepPositiveTotal(Rows(f), atan2, w);
    OrderIndependent(pts, PanelOrder, w);
  }

  // ---------------------------------------------------------------------
  // Panel count.

  /** Arc length is strictly increasing within each group: no two points
      of one group share an s. */
  ghost predicate DistinctArcLengths(pts: seq<ContourPoint>) {
    forall i, j :: 0 <= i < j < |pts| && pts[i].group == pts[j].group ==> pts[i].s != pts[j].s
  }

  function NonEmpty(c: seq<ContourPoint>): nat {
    if |c| > 0 then 1 else 0
  }

  /** G: the number of groups with at least one point. */
  function GroupCount(pts: seq<ContourPoint>): nat {
    NonEmpty(OfGroup(pts, Upper)) + NonEmpty(OfGroup(pts, Lower)) + NonEmpty(OfGroup(pts, Spar))
  }

  /** When no two points of a group share an arc length, every row but the
      first of each group has positive length: the panelizer outputs
      N − G panels for N points in G non-empty groups. */
  lemma PanelCount(pts: seq<ContourPoint>, atan2: (real, real) -> real)
    requires DistinctArcLengths(pts)
    ensures |GenPanels(pts, atan2)| == |pts| - GroupCount(pts)
  {
    var f := SortedFrame(pts, PanelOrder);
    RankingsAreGroupOrders();
    KeepPositiveCount(Rows(f), atan2);
    FrameTotalOfGroups(pts, PanelOrder, Positive);
    ChainCount(pts, Upper);
    ChainCount(pts, Lower);
    ChainCount(pts, Spar);
    GroupSizes(pts);
  }

  /** The points split into the three groups. */
  lemma {:induction false} GroupSizes(pts: seq<ContourPoint>)
    ensures |OfGroup(pts, Upper)| + |OfGroup(pts, Lower)| + |OfGroup(pts, Spar)| == |pts|
    decreases |pts|
  {
    if |pts| > 0 {
      GroupSizes(pts[..|pts| - 1]);
    }
  }

  /** A chain of n points with distinct arc lengths has n − 1 rows of
      positive length. */
  lemma ChainCount(pts: seq<ContourPoint>, g: Group)
    requires DistinctArcLengths(pts)
    ensures ChainTotal(pts, g, Positive) == (|OfGroup(pts, g)| - NonEmpty(OfGroup(pts, g))) as real
  {
    var c := Chain(pts, g);
    ChainOfGroup(pts, g);
    OfGroupKeysDistinct(pts, g);
    SortKeysDistinct(OfGroup(pts, g), PointS);
    SortedDistinctStrict(c, PointS);
    StrictChainCount(c);
  }

  /** A chain of one group with strictly increasing arc lengths has one row
      of positive length per point but the first. */
  lemma StrictChainCount(c: seq<ContourPoint>)
    requires forall i :: 0 <= i < |c| ==> c[i].group == c[0].group
    requires forall i, j :: 0 <= i < j < |c| ==> PointS(c[i]) < PointS(c[j])
    ensures Total(RowSegments(Rows(c)), Positive) == (|c| - NonEmpty(c)) as real
  {
    if |c| > 0 {
      assert c[..|c|] == c;
      ChainSteps(c, |c|);
    }
  }

  lemma {:induction false} ChainSteps(c: seq<ContourPoint>, n: nat)
    requires 0 < n <= |c|
    requires forall i :: 0 <= i < |c| ==> c[i].group == c[0].group
    requires forall i, j :: 0 <= i < j < |c| ==> PointS(c[i]) < PointS(c[j])
    ensures Total(RowSegments(Rows(c[..n])), Positive) == (n - 1) as real
    decreases n
  {
    var f := c[..n];
    PrefixTotalStep(c, n, Positive);
    if n == 1 {
      ChainRowFirst(f);
      PrefixEmpty(c);
    } else {
      ChainRowStep(f, n - 1);
      assert PointS(c[n - 2]) < PointS(c[n - 1]);
      ChainSteps(c, n - 1);
    }
  }

  /** A group's points, in input order, have distinct arc lengths. */
  lemma {:induction false} OfGroupKeysDistinct(pts: seq<ContourPoint>, g: Group)
    requires DistinctArcLengths(pts)
    ensures KeysDistinct(OfGroup(pts, g), PointS)
    decreases |pts|
  {
    if |pts| > 0 {
      var p := pts[..|pts| - 1];
      DistinctPrefix(pts, p);
      OfGroupKeysDistinct(p, g);
      KeysDistinctStep(pts, p, g, OfGroup(p, g));
    }
  }

  /** One more point keeps the arc lengths of the selected group distinct. */
  lemma KeysDistinctStep(pts: seq<ContourPoint>, p: seq<ContourPoint>, g: Group, r: seq<ContourPoint>)
    requires |pts| > 0 && p == pts[..|pts| - 1] && DistinctArcLengths(pts)
    requires r == OfGroup(p, g) && KeysDistinct(r, PointS)
    ensures KeysDistinct(OfGroup(pts, g), PointS)
  {
    OfGroupSnoc(pts, g);
    if pts[|pts| - 1].group == g {
      LastKeyFresh(pts, g);
      SnocKeysDistinct(r, pts[|pts| - 1]);
    }
  }

  lemma DistinctPrefix(pts: seq<ContourPoint>, p: seq<ContourPoint>)
    requires |pts| > 0 && p == pts[..|pts| - 1] && DistinctArcLengths(pts)
    ensures DistinctArcLengths(p)
  {
  }

  /** Selecting a group from a table with one more point. */
  lemma OfGroupSnoc(pts: seq<ContourPoint>, g: Group)
    requires |pts| > 0
    ensures pts[|pts| - 1].group == g ==> OfGroup(pts, g) == OfGroup(pts[..|pts| - 1], g) + [pts[|pts| - 1]]
    ensures pts[|pts| - 1].group != g ==> OfGroup(pts, g) == OfGroup(pts[..|pts| - 1], g)
  {
    var r := OfGroup(pts[..|pts| - 1], g);
    if pts[|pts| - 1].group != g {
      assert r + [] == r;
    }
  }

  /** The last point's arc length differs from those of the earlier points
      of its group. */
  lemma LastKeyFresh(pts: seq<ContourPoint>, g: Group)
    requires |pts| > 0 && DistinctArcLengths(pts) && pts[|pts| - 1].group == g
    ensures forall q :: q in OfGroup(pts[..|pts| - 1], g) ==> PointS(q) != PointS(pts[|pts| - 1])
  {
    var n := |pts| - 1;
    var p := pts[..n];
    var r := OfGroup(p, g);
    forall q | q in r ensures PointS(q) != PointS(pts[n]) {
      assert multiset(r)[q] > 0;
      assert q in p;
      var j :| 0 <= j < n && p[j] == q;
      assert pts[j] == q;
    }
  }

  lemma SnocKeysDistinct(r: seq<ContourPoint>, x: ContourPoint)
    requires KeysDistinct(r, PointS)
    requires forall q :: q in r ==> PointS(q) != PointS(x)
    ensures KeysDistinct(r + [x], PointS)
  {
    var t := r + [x];
    forall i, j | 0 <= i < j < |t| ensures PointS(t[i]) != PointS(t[j]) {
      if j == |r| {
        assert t[i] in r;
      } else {
        assert t[i] == r[i] && t[j] == r[j];
      }
    }
  }
}

=== FILE: pipeline.dfy ===
/** The scripts chained together: the section properties of the contour
    feed the basic shear flow over the panels cut from the same contour. */
module Pipeline {
  import opened Contour
  import opened Integrals
  import opened Section
  import opened Panels
  import opened ShearOpen

  /** With the centroid and second moments of the contour itself, the
      basic flow closes: the first moments accumulated over every panel
      sum to zero, so the last panel's `qy` and `qx` vanish. */
  lemma BasicFlowCloses(pts: seq<ContourPoint>, atan2: (real, real) -> real, t: real, sx: real, sy: real)
    requires SectionProperties(pts, t).Ok? && ArcLengthsFromZero(pts)
    requires |GenPanels(pts, atan2)| > 0
    requires var p := SectionProperties(pts, t).value; Det(p.ixx, p.iyy, p.ixy) != 0.0
    ensures var p := SectionProperties(pts, t).value;
      var ps := GenPanels(pts, atan2);
      var rows := QsBasic(ps, t, sx, sy, p.ixx, p.iyy, p.ixy, p.xbar, p.ybar).value;
      rows[|ps| - 1].qy == 0.0 && rows[|ps| - 1].qx == 0.0
  {
    var p := SectionProperties(pts, t).value;
    PanelCentroid(pts, atan2, t);
    FlowClosesAt(GenPanels(pts, atan2), t, sx, sy, p.ixx, p.iyy, p.ixy, p.xbar, p.ybar);
  }

  /** `(cx, cy)` is the length-weighted mean of the segments' midpoints. */
  ghost predicate IsCentroid(segs: seq<Segment>, cx: real, cy: real) {
    && cx * Total(segs, Length) == Total(segs, MomentX)
    && cy * Total(segs, Length) == Total(segs, MomentY)
  }

  /** Taken about the panels' own centroid, the basic flow closes. */
  lemma FlowClosesAt(ps: seq<Panel>, t: real, sx: real, sy: real, ixx: real, iyy: real, ixy: real,
                     xbar: real, ybar: real)
    requires Det(ixx, iyy, ixy) != 0.0 && |ps| > 0
    requires IsCentroid(PanelSegments(ps), xbar, ybar)
    ensures QsBasic(ps, t, sx, sy, ixx, iyy, ixy, xbar, ybar).value[|ps| - 1].qy == 0.0
    ensures QsBasic(ps, t, sx, sy, ixx, iyy, ixy, xbar, ybar).value[|ps| - 1].qx == 0.0
  {
    LastMomentVanishes(ps, t, sx, sy, ixx, iyy, ixy, xbar, ybar);
  }

  /** The contour's centroid is also the length-weighted mean of the panel
      midpoints. */
  lemma PanelCentroid(pts: seq<ContourPoint>, atan2: (real, real) -> real, t: real)
    requires SectionProperties(pts, t).Ok? && ArcLengthsFromZero(pts)
    ensures IsCentroid(PanelSegments(GenPanels(pts, atan2)),
                       SectionProperties(pts, t).value.xbar, SectionProperties(pts, t).value.ybar)
  {
    PanelOffsetsVanish(pts, atan2, t);
    OffsetsGiveMean(PanelSegments(GenPanels(pts, atan2)),
                    SectionProperties(pts, t).value.xbar, SectionProperties(pts, t).value.ybar);
  }

  /** Both first moments of the panels about the contour's centroid vanish. */
  lemma PanelOffsetsVanish(pts: seq<ContourPoint>, atan2: (real, real) -> real, t: real)
    requires SectionProperties(pts, t).Ok? && ArcLengthsFromZero(pts)
    ensures Total(PanelSegments(GenPanels(pts, atan2)), OffsetX(SectionProperties(pts, t).value.xbar)) == 0.0
    ensures Total(PanelSegments(GenPanels(pts, atan2)), OffsetY(SectionProperties(pts, t).value.ybar)) == 0.0
  {
    FirstMomentsVanish(pts, t);
    PanelsIntegrateLikeSection(pts, atan2, OffsetX(SectionProperties(pts, t).value.xbar));
    PanelsIntegrateLikeSection(pts, atan2, OffsetY(SectionProperties(pts, t).value.ybar));
  }

  /** A point about which both first moments vanish is the length-weighted
      mean of the midpoints. */
  lemma OffsetsGiveMean(segs: seq<Segment>, cx: real, cy: real)
    requires Total(segs, OffsetX(cx)) == 0.0 && Total(segs, OffsetY(cy)) == 0.0
    ensures IsCentroid(segs, cx, cy)
  {
    TotalOffset(segs, cx, cy);
  }

  /** A one-group contour: two upper points a unit apart, arc lengths 0
      and 1. */
  function UnitContour(): seq<ContourPoint> {
    [ContourPoint(Upper, 0.0, 0.0, 0.0), ContourPoint(Upper, 1.0, 0.0, 1.0)]
  }

  /** The unit contour meets the preconditions of the section and pipeline
      lemmas above: its properties are defined and each group's arc length
      starts at 0. */
  lemma UnitContourQualifies()
    ensures SectionProperties(UnitContour(), 1.0).Ok?
    ensures SectionProperties(UnitContour(), 1.0).value.length == 1.0
    ensures ArcLengthsFromZero(UnitContour())
  {
    UnitContourLength();
    UnitContourFromZero();
  }

  lemma UnitContourLength()
    ensures TotalLength(UnitContour()) == 1.0
  {
    var pts := UnitContour();
    UnitContourGroups();
    UnitContourMax();
    assert GroupLength(pts, Lower) == 0.0 && GroupLength(pts, Spar) == 0.0;
    assert GroupLength(pts, Upper) == 1.0;
  }

  lemma UnitContourFromZero()
    ensures ArcLengthsFromZero(UnitContour())
  {
    var pts := UnitContour();
    forall g | HasPoint(pts, g) ensures StartsAtZero(pts, g) {
      var i :| 0 <= i < |pts| && pts[i].group == g;
      assert pts[0].group == g && pts[0].s == 0.0;
    }
  }

  lemma UnitContourGroups()
    ensures OfGroup(UnitContour(), Lower) == []
    ensures OfGroup(UnitContour(), Spar) == []
    ensures OfGroup(UnitContour(), Upper) == UnitContour()
  {
    UpperPairGroups(ContourPoint(Upper, 0.0, 0.0, 0.0), ContourPoint(Upper, 1.0, 0.0, 1.0));
  }

  lemma UpperPairGroups(p0: ContourPoint, p1: ContourPoint)
    requires p0.group == Upper && p1.group == Upper
    ensures OfGroup([p0, p1], Lower) == []
    ensures OfGroup([p0, p1], Spar) == []
    ensures OfGroup([p0, p1], Upper) == [p0, p1]
  {
    OfGroupPair(p0, p1, Lower);
    OfGroupPair(p0, p1, Spar);
    OfGroupPair(p0, p1, Upper);
    assert [p0] + [p1] == [p0, p1];
  }

  lemma OfGroupPair(p0: ContourPoint, p1: ContourPoint, g: Group)
    ensures OfGroup([p0, p1], g) == (if p0.group == g then [p0] else []) + (if p1.group == g then [p1] else [])
  {
    assert [p0, p1][..1] == [p0];
    OfGroupSingle(p0, g);
  }

  lemma OfGroupSingle(p: ContourPoint, g: Group)
    ensures OfGroup([p], g) == if p.group == g then [p] else []
  {
    assert [p][..0] == [];
  }

  lemma UnitContourMax()
    ensures MaxS(UnitContour()) == 1.0
  {
    var pts := UnitContour();
    assert pts[..1] == [pts[0]];
  }
}

=== FILE: real_arith.dfy ===
/** Elementary facts about products of reals used by the proofs. */
module RealArith {

  /** `b² ≤ a·c`. */
  ghost predicate SquareBelow(b: real, a: real, c: real) {
    b * b <= a * c
  }

  lemma ScaleMonotone(c: real, a: real, b: real)
    requires c >= 0.0 && a <= b
    ensures c * a <= c * b
  {
    MulNonNegative(c, b - a);
    assert c * (b - a) == c * b - c * a;
  }

  lemma SquareNonNegative(z: real)
    ensures z * z >= 0.0
  {
  }

  lemma MulNonNegative(a: real, b: real)
    requires a >= 0.0 && b >= 0.0
    ensures a * b >= 0.0
  {
  }

  /** Scaling both sides of a product inequality by t² keeps it. */
  lemma ScaleProducts(t: real, a: real, b: real, c: real)
    requires a * a <= b * c
    ensures (t * a) * (t * a) <= (t * b) * (t * c)
  {
    SquareNonNegative(t);
    ScaleMonotone(t * t, a * a, b * c);
    assert (t * a) * (t * a) == (t * t) * (a * a);
    assert (t * b) * (t * c) == (t * t) * (b * c);
  }
}

=== FILE: real_sums.dfy ===
/** Finite sums and running sums over sequences of reals (the `sum` and
    `np.sum` and `np.cumsum` reductions of the scripts). */
module RealSums {

  /** Sum of a sequence, accumulated from the front. */
  function Sum(a: seq<real>): real
    decreases |a|
  {
    if |a| == 0 then 0.0 else Sum(a[..|a| - 1]) + a[|a| - 1]
  }

  lemma {:induction false} SumAppend(a: seq<real>, b: seq<real>)
    ensures Sum(a + b) == Sum(a) + Sum(b)
    decreases |b|
  {
    if |b| == 0 {
      assert a + b == a;
    } else {
      assert (a + b)[..|a + b| - 1] == a + b[..|b| - 1];
      SumAppend(a, b[..|b| - 1]);
    }
  }

  lemma SumCons(x: real, b: seq<real>)
    ensures Sum([x] + b) == x + Sum(b)
  {
    SumAppend([x], b);
    assert [x][..0] == [];
  }

  /** A sum of non-negative terms is non-negative. */
  lemma {:induction false} SumNonNegative(a: seq<real>)
    requires forall i :: 0 <= i < |a| ==> a[i] >= 0.0
    ensures Sum(a) >= 0.0
    decreases |a|
  {
    if |a| > 0 {
      SumNonNegative(a[..|a| - 1]);
    }
  }

  /** Rotating a sequence cyclically does not change its sum. */
  lemma SumRotate(a: seq<real>, k: nat)
    requires k <= |a|
    ensures Sum(a[k..] + a[..k]) == Sum(a)
  {
    SumAppend(a[k..], a[..k]);
    SumAppend(a[..k], a[k..]);
    assert a[..k] + a[k..] == a;
  }

  lemma SumPrefixesCons(a: seq<real>)
    requires |a| > 0
    ensures forall k :: 0 <= k < |a| ==> Sum(a[..k + 1]) == a[0] + Sum(a[1..][..k])
  {
    forall k | 0 <= k < |a|
      ensures Sum(a[..k + 1]) == a[0] + Sum(a[1..][..k])
    {
      assert a[..k + 1] == [a[0]] + a[1..][..k];
      SumCons(a[0], a[1..][..k]);
    }
  }

  /** Running sum started from `acc`: entry k is `acc` plus the sum of the
      first k + 1 terms. */
  function RunningSum(acc: real, a: seq<real>): (r: seq<real>)
    ensures |r| == |a|
    ensures forall k :: 0 <= k < |a| ==> r[k] == acc + Sum(a[..k + 1])
    decreases |a|
  {
    if |a| == 0 then []
    else
      SumPrefixesCons(a);
      [acc + a[0]] + RunningSum(acc + a[0], a[1..])
  }

  /** `cumsum`: entry k is the sum of terms 0..k; each entry adds the next
      term to the previous entry, and the last entry is the total. */
  function CumSum(a: seq<real>): (r: seq<real>)
    ensures |r| == |a|
    ensures forall k :: 0 <= k < |a| ==> r[k] == Sum(a[..k + 1])
    ensures |a| > 0 ==> r[0] == a[0]
    ensures forall k :: 0 < k < |a| ==> r[k] == r[k - 1] + a[k]
    ensures |a| > 0 ==> r[|a| - 1] == Sum(a)
  {
    var r := RunningSum(0.0, a);
    assert forall k :: 0 < k < |a| ==> a[..k + 1][..k] == a[..k];
    assert |a| > 0 ==> a[..|a|] == a;
    r
  }

  /** The sum of a slice of non-negative terms bounds the sums of its prefixes. */
  lemma SumPrefixMonotone(a: seq<real>, i: nat, j: nat)
    requires i <= j <= |a|
    requires forall k :: 0 <= k < |a| ==> a[k] >= 0.0
    ensures Sum(a[..i]) <= Sum(a[..j])
  {
    assert a[..j] == a[..i] + a[i..j];
    SumAppend(a[..i], a[i..j]);
    SumNonNegative(a[i..j]);
  }

  /** Termwise, r is the combination a − ka·b + kb·c. */
  ghost predicate Combines(r: seq<real>, a: seq<real>, b: seq<real>, c: seq<real>, ka: real, kb: real) {
    && |a| == |r| && |b| == |r| && |c| == |r|
    && forall i :: 0 <= i < |r| ==> r[i] == a[i] - ka * b[i] + kb * c[i]
  }

  lemma CombinesPrefix(r: seq<real>, a: seq<real>, b: seq<real>, c: seq<real>, ka: real, kb: real, n: nat)
    requires Combines(r, a, b, c, ka, kb) && n < |r|
    ensures Combines(r[..n], a[..n], b[..n], c[..n], ka, kb)
    ensures r[n] == a[n] - ka * b[n] + kb * c[n]
  {
  }

  /** Sums are linear: a termwise combination a − ka·b + kb·c sums to the
      same combination of the sums (passed in as `sa`, `sb`, `sc`). */
  lemma {:induction false} SumCombination(r: seq<real>, a: seq<real>, b: seq<real>, c: seq<real>,
                                          ka: real, kb: real, sa: real, sb: real, sc: real)
    requires Combines(r, a, b, c, ka, kb)
    requires sa == Sum(a) && sb == Sum(b) && sc == Sum(c)
    ensures Sum(r) == sa - ka * sb + kb * sc
    decreases |r|
  {
    if |r| == 0 {
      CombinationZero(ka, kb);
    } else {
      var n := |r| - 1;
      CombinesPrefix(r, a, b, c, ka, kb, n);
      SumCombination(r[..n], a[..n], b[..n], c[..n], ka, kb, Sum(a[..n]), Sum(b[..n]), Sum(c[..n]));
      CombinationStep(Sum(r[..n]), Sum(a[..n]), Sum(b[..n]), Sum(c[..n]), r[n], a[n], b[n], c[n],
                      ka, kb, sa, sb, sc);
    }
  }

  lemma CombinationZero(ka: real, kb: real)
    ensures 0.0 == 0.0 - ka * 0.0 + kb * 0.0
  {
  }

  lemma CombinationStep(r: real, a: real, b: real, c: real, dr: real, da: real, db: real, dc: real,
                        ka: real, kb: real, sa: real, sb: real, sc: real)
    requires r == a - ka * b + kb * c
    requires dr == da - ka * db + kb * dc
    requires sa == a + da && sb == b + db && sc == c + dc
    ensures r + dr == sa - ka * sb + kb * sc
  {
    assert ka * sb == ka * b + ka * db;
    assert kb * sc == kb * c + kb * dc;
  }

  /** `r` is `a` minus `k` times `b`, term by term. */
  ghost predicate Differs(r: seq<real>, a: seq<real>, b: seq<real>, k: real) {
    && |a| == |r| && |b| == |r|
    && forall i :: 0 <= i < |r| ==> r[i] == a[i] - k * b[i]
  }

  lemma DiffersPrefix(r: seq<real>, a: seq<real>, b: seq<real>, k: real, n: nat)
    requires Differs(r, a, b, k) && n < |r|
    ensures Differs(r[..n], a[..n], b[..n], k)
    ensures r[n] == a[n] - k * b[n]
  {
  }

  /** The sum of a termwise difference a − k·b is the same difference of
      the sums (passed in as `sa`, `sb`). */
  lemma {:induction false} SumDifference(r: seq<real>, a: seq<real>, b: seq<real>, k: real, sa: real, sb: real)
    requires Differs(r, a, b, k)
    requires sa == Sum(a) && sb == Sum(b)
    ensures Sum(r) == sa - k * sb
    decreases |r|
  {
    if |r| == 0 {
      assert k * 0.0 == 0.0;
    } else {
      var n := |r| - 1;
      DiffersPrefix(r, a, b, k, n);
      SumDifference(r[..n], a[..n], b[..n], k, Sum(a[..n]), Sum(b[..n]));
      DifferenceStep(Sum(r[..n]), Sum(a[..n]), Sum(b[..n]), r[n], a[n], b[n], k, sa, sb);
    }
  }

  lemma DifferenceStep(r: real, a: real, b: real, dr: real, da: real, db: real, k: real, sa: real, sb: real)
    requires r == a - k * b && dr == da - k * db
    requires sa == a + da && sb == b + db
    ensures r + dr == sa - k * sb
  {
    assert k * sb == k * b + k * db;
  }

  /** `r` is `a` scaled elementwise by `k`. */
  ghost predicate Scaled(r: seq<real>, a: seq<real>, k: real) {
    |a| == |r| && forall i :: 0 <= i < |r| ==> r[i] == k * a[i]
  }

  /** Scaling every term scales the sum. */
  lemma {:induction false} SumScaled(r: seq<real>, a: seq<real>, k: real, sa: real)
    requires Scaled(r, a, k)
    requires sa == Sum(a)
    ensures Sum(r) == k * sa
    decreases |r|
  {
    if |r| == 0 {
      assert k * 0.0 == 0.0;
    } else {
      var n := |r| - 1;
      ScaledPrefix(r, a, k, n);
      SumScaled(r[..n], a[..n], k, Sum(a[..n]));
      ScaleStep(Sum(r[..n]), Sum(a[..n]), r[n], a[n], k, sa);
    }
  }

  lemma ScaledPrefix(r: seq<real>, a: seq<real>, k: real, n: nat)
    requires Scaled(r, a, k) && n < |r|
    ensures Scaled(r[..n], a[..n], k) && r[n] == k * a[n]
  {
    assert forall i :: 0 <= i < n ==> r[..n][i] == r[i] && a[..n][i] == a[i];
  }

  lemma ScaleStep(r: real, a: real, dr: real, da: real, k: real, sa: real)
    requires r == k * a && dr == k * da && sa == a + da
    ensures r + dr == k * sa
  {
  }
}

=== FILE: results.dfy ===
/** Failure-compatible result type shared by every stage of the pipeline. */
module Results {

  /** The ways a stage can fail.
      - DivisionByZero: a script divides two Python floats by zero and raises.
      - NonFinite: a script divides numpy values by zero and carries inf/nan onwards.
      - EmptyCurve: indexing the first sample of an empty curve.
      - OutOfRange: an interpolation query outside the x-extent of the curve. */
  datatype Error = DivisionByZero | NonFinite | EmptyCurve | OutOfRange

  datatype Result<+T> = Ok(value: T) | Err(error: Error) {

    predicate IsFailure() {
      Err?
    }

    function PropagateFailure<U>(): Result<U>
      requires Err?
    {
      Err(error)
    }

    function Extract(): T
      requires Ok?
    {
      value
    }
  }

  /** A value that may be missing, as a pandas `shift()` is on the first
      row of a group. */
  datatype Option<+T> = None | Some(value: T)
}

=== FILE: section.dfy ===
/** Thin-wall section properties by the midpoint rule: wall length, area,
    centroid and second moments of area, from the rows of the contour
    table sorted by the raw group label. */
module Section {
  import opened Results
  import opened Sorting
  import opened RealArith
  import opened Contour
  import opened Integrals

  /** Results of the section-property script; `ixx`, `iyy`, `ixy` are about
      the centroid (`xbar`, `ybar`). */
  datatype Properties = Properties(
    length: real, area: real, xbar: real, ybar: real, ixx: real, iyy: real, ixy: real)

  function RowSegment(r: Row): Segment {
    Segment(r.xm, r.ym, r.ds)
  }

  function RowSegments(rows: seq<Row>): (segs: seq<Segment>)
    ensures |segs| == |rows|
    ensures forall i :: 0 <= i < |rows| ==> segs[i] == RowSegment(rows[i])
  {
    seq(|rows|, i requires 0 <= i < |rows| => RowSegment(rows[i]))
  }

  lemma RowSegmentsAppend(a: seq<Row>, b: seq<Row>)
    ensures RowSegments(a + b) == RowSegments(a) + RowSegments(b)
  {
    assert forall i :: 0 <= i < |a + b| ==> RowSegments(a + b)[i] == (RowSegments(a) + RowSegments(b))[i];
  }

  lemma RowSegmentsSingle(r: Row)
    ensures RowSegments([r]) == [RowSegment(r)]
  {
  }

  /** The segments of the table sorted with the groups ranked by `o`. */
  function FrameSegments(pts: seq<ContourPoint>, o: seq<Group>): seq<Segment>
    requires Distinct(o)
  {
    RowSegments(Rows(SortedFrame(pts, o)))
  }

  /** The segments the script integrates over: the rows of the table
      sorted by label ("lower" < "spar" < "upper") and arc length. */
  function SectionSegments(pts: seq<ContourPoint>): seq<Segment> {
    FrameSegments(pts, LabelOrder)
  }

  /** Largest arc length in a non-empty chain. */
  function MaxS(c: seq<ContourPoint>): (m: real)
    requires |c| > 0
    ensures forall i :: 0 <= i < |c| ==> c[i].s <= m
    ensures exists i :: 0 <= i < |c| && c[i].s == m
    decreases |c|
  {
    if |c| == 1 then c[0].s
    else
      var m := MaxS(c[..|c| - 1]);
      assert forall i :: 0 <= i < |c| - 1 ==> c[..|c| - 1][i] == c[i];
      if c[|c| - 1].s > m then c[|c| - 1].s else m
  }

  /** `groupby("panel")["s"].max()` for one group; a group with no point
      has no entry, which adds nothing to the total. */
  function GroupLength(pts: seq<ContourPoint>, g: Group): real {
    var c := OfGroup(pts, g);
    if |c| == 0 then 0.0 else MaxS(c)
  }

  /** No point has a negative arc length. */
  ghost predicate ArcLengthsNonNegative(pts: seq<ContourPoint>) {
    forall i :: 0 <= i < |pts| ==> pts[i].s >= 0.0
  }

  /** With no negative arc length, a group's final arc length is not
      negative and bounds the arc length of each of its points. */
  lemma GroupLengthBounds(pts: seq<ContourPoint>, g: Group)
    ensures ArcLengthsNonNegative(pts) ==> GroupLength(pts, g) >= 0.0
    ensures forall i :: 0 <= i < |pts| && pts[i].group == g ==> pts[i].s <= GroupLength(pts, g)
  {
    var c := OfGroup(pts, g);
    if |c| > 0 {
      var j :| 0 <= j < |c| && c[j].s == MaxS(c);
      assert c[j] in multiset(c);
    }
    forall i | 0 <= i < |pts| && pts[i].group == g ensures pts[i].s <= GroupLength(pts, g) {
      assert pts[i] in multiset(pts);
      assert pts[i] in multiset(c);
      var k :| 0 <= k < |c| && c[k] == pts[i];
    }
  }

  /** `L_total`: the sum over the groups of their largest arc length. With
      no negative arc length it is not negative and no point lies further
      along its group than it. */
  function TotalLength(pts: seq<ContourPoint>): (len: real)
    ensures ArcLengthsNonNegative(pts) ==> len >= 0.0 && forall i :: 0 <= i < |pts| ==> pts[i].s <= len
  {
    GroupLengthBounds(pts, Lower);
    GroupLengthBounds(pts, Spar);
    GroupLengthBounds(pts, Upper);
    GroupLength(pts, Lower) + GroupLength(pts, Spar) + GroupLength(pts, Upper)
  }

  /** Wall area: thickness times wall length. */
  function Area(t: real, len: real): real {
    t * len
  }

  /** `t/A * Σ m·ds` with A = t·L: a first moment divided by the length. */
  function Centroid(t: real, len: real, moment: real): real
    requires t != 0.0 && len != 0.0
  {
    t / (t * len) * moment
  }

  /** The properties of a wall made of the segments `segs`, of thickness
      `t` and total length `len`: area, centroid, and the second moments
      about the centroid scaled by the thickness. */
  function PropertiesOf(segs: seq<Segment>, len: real, t: real): (r: Properties)
    requires t != 0.0 && len != 0.0
    ensures r.length == len && r.area == Area(t, len)
    ensures r.xbar * len == Total(segs, MomentX)
    ensures r.ybar * len == Total(segs, MomentY)
  {
    var xbar := Centroid(t, len, Total(segs, MomentX));
    var ybar := Centroid(t, len, Total(segs, MomentY));
    CentroidTimesLength(t, len, Total(segs, MomentX), xbar);
    CentroidTimesLength(t, len, Total(segs, MomentY), ybar);
    AboutCentroid(segs, len, t, xbar, ybar)
  }

  /** Length, area, the centroid `(xbar, ybar)` and the second moments
      about it scaled by the thickness. */
  function AboutCentroid(segs: seq<Segment>, len: real, t: real, xbar: real, ybar: real): Properties {
    Properties(len, Area(t, len), xbar, ybar,
      t * Total(segs, SquareY(ybar)),
      t * Total(segs, SquareX(xbar)),
      t * Total(segs, ProductXY(xbar, ybar)))
  }

  /** The section-property script. The area is the thickness times the
      wall length; the centroid divides by it with numpy semantics, so a
      zero area (zero thickness or zero length) yields non-finite values. */
  function SectionProperties(pts: seq<ContourPoint>, t: real): (r: Result<Properties>)
    ensures r.Err? <==> t == 0.0 || TotalLength(pts) == 0.0
    ensures r.Err? ==> r.error == NonFinite
    ensures r.Ok? ==> r.value.length == TotalLength(pts) && r.value.area == Area(t, TotalLength(pts))
  {
    var len := TotalLength(pts);
    if t == 0.0 || len == 0.0 then Err(NonFinite)
    else Ok(PropertiesOf(SectionSegments(pts), len, t))
  }

  lemma CentroidTimesLength(t: real, len: real, m: real, x: real)
    requires t != 0.0 && len != 0.0 && x == Centroid(t, len, m)
    ensures x * len == m
  {
    assert (t / (t * len) * m) * len == m;
  }

  /** `Ixy² <= Ixx·Iyy`, that is `D = Ixx·Iyy − Ixy² >= 0`. */
  ghost predicate ProductMomentBounded(p: Properties) {
    p.ixy * p.ixy <= p.ixx * p.iyy
  }

  /** For a positive thickness and segments of non-negative length both
      second moments are non-negative, and for any thickness the product
      moment is bounded by them (Cauchy–Schwarz), so `Ixx·Iyy − Ixy² >= 0`. */
  lemma SecondMomentsBounds(segs: seq<Segment>, len: real, t: real)
    requires t != 0.0 && len != 0.0
    requires LengthsNonNegative(segs)
    ensures t > 0.0 ==> PropertiesOf(segs, len, t).ixx >= 0.0 && PropertiesOf(segs, len, t).iyy >= 0.0
    ensures ProductMomentBounded(PropertiesOf(segs, len, t))
  {
    var r := PropertiesOf(segs, len, t);
    assert r == AboutCentroid(segs, len, t, r.xbar, r.ybar);
    CentroidMomentsNonNegative(segs, len, t, r.xbar, r.ybar);
    CentroidProductBounded(segs, len, t, r.xbar, r.ybar);
  }

  lemma CentroidMomentsNonNegative(segs: seq<Segment>, len: real, t: real, xbar: real, ybar: real)
    requires LengthsNonNegative(segs)
    ensures t > 0.0 ==> AboutCentroid(segs, len, t, xbar, ybar).ixx >= 0.0 && AboutCentroid(segs, len, t, xbar, ybar).iyy >= 0.0
  {
    SquaresNonNegative(segs, xbar, ybar);
    if t > 0.0 {
      MulNonNegative(t, Total(segs, SquareY(ybar)));
      MulNonNegative(t, Total(segs, SquareX(xbar)));
    }
  }

  lemma CentroidProductBounded(segs: seq<Segment>, len: real, t: real, xbar: real, ybar: real)
    requires LengthsNonNegative(segs)
    ensures ProductMomentBounded(AboutCentroid(segs, len, t, xbar, ybar))
  {
    var p := AboutCentroid(segs, len, t, xbar, ybar);
    CauchySchwarz(segs, xbar, ybar);
    ScaledBound(t, Total(segs, SquareX(xbar)), Total(segs, SquareY(ybar)), Total(segs, ProductXY(xbar, ybar)),
      p.ixx, p.iyy, p.ixy);
  }

  /** Scaling sums that satisfy the Cauchy–Schwarz inequality by the
      thickness keeps it. */
  lemma ScaledBound(t: real, sxx: real, syy: real, sxy: real, ixx: real, iyy: real, ixy: real)
    requires SquareBelow(sxy, sxx, syy)
    requires ixx == t * syy && iyy == t * sxx && ixy == t * sxy
    ensures ixy * ixy <= ixx * iyy
  {
    ScaleProducts(t, sxy, syy, sxx);
  }

  /** The same bounds for the script's result: sorting makes every `ds`
      non-negative. */
  lemma SectionSecondMoments(pts: seq<ContourPoint>, t: real)
    requires SectionProperties(pts, t).Ok?
    ensures t > 0.0 ==> SectionProperties(pts, t).value.ixx >= 0.0 && SectionProperties(pts, t).value.iyy >= 0.0
    ensures ProductMomentBounded(SectionProperties(pts, t).value)
  {
    var r := SectionProperties(pts, t).value;
    assert r == PropertiesOf(SectionSegments(pts), TotalLength(pts), t);
    SectionLengthsNonNegative(pts);
    SecondMomentsBounds(SectionSegments(pts), TotalLength(pts), t);
  }

  /** Sorting by group and arc length makes every segment length
      non-negative. */
  lemma FrameLengthsNonNegative(pts: seq<ContourPoint>, o: seq<Group>)
    requires Distinct(o)
    ensures LengthsNonNegative(FrameSegments(pts, o))
  {
    var f := SortedFrame(pts, o);
    SortedRowsNonNegative(f, o);
  }

  lemma SectionLengthsNonNegative(pts: seq<ContourPoint>)
    ensures LengthsNonNegative(SectionSegments(pts))
  {
    RankingsAreGroupOrders();
    FrameLengthsNonNegative(pts, LabelOrder);
  }

  // ---------------------------------------------------------------------
  // Order independence: sums over the sorted table are sums over the
  // groups' chains, whatever order ranks the groups.

  function ChainSegments(pts: seq<ContourPoint>, g: Group): seq<Segment> {
    RowSegments(Rows(Chain(pts, g)))
  }

  /** The value attached to a group. */
  function Pick(g: Group, u: real, l: real, s: real): real {
    match g
    case Upper => u
    case Lower => l
    case Spar => s
  }

  /** Sum of per-group values (`u` for upper, `l` for lower, `s` for spar)
      taken in the order `o`. */
  function OrderSum(o: seq<Group>, u: real, l: real, s: real): real
    decreases |o|
  {
    if |o| == 0 then 0.0 else Pick(o[0], u, l, s) + OrderSum(o[1..], u, l, s)
  }

  /** Summing over any ranking of the three groups adds up the same
      values. */
  lemma OrderSumPermutation(o: seq<Group>, u: real, l: real, s: real)
    requires IsGroupOrder(o)
    ensures OrderSum(o, u, l, s) == u + l + s
  {
    var o1 := o[1..];
    var o2 := o1[1..];
    assert |o2[1..]| == 0;
    assert o1[0] == o[1] && o2[0] == o[2];
    assert OrderSum(o2, u, l, s) == Pick(o[2], u, l, s);
    assert OrderSum(o1, u, l, s) == Pick(o[1], u, l, s) + OrderSum(o2, u, l, s);
    assert OrderSum(o, u, l, s) == Pick(o[0], u, l, s) + OrderSum(o1, u, l, s);
    PickThree(o[0], o[1], o[2], u, l, s);
  }

  lemma PickThree(a: Group, b: Group, c: Group, u: real, l: real, s: real)
    requires a != b && a != c && b != c
    ensures Pick(a, u, l, s) + Pick(b, u, l, s) + Pick(c, u, l, s) == u + l + s
  {
    match a
    case Upper => assert b.Lower? || b.Spar?;
    case Lower => assert b.Upper? || b.Spar?;
    case Spar => assert b.Upper? || b.Lower?;
  }

  /** Total of integrand `w` over the chain of group `g`. */
  function ChainTotal(pts: seq<ContourPoint>, g: Group, w: Integrand): real {
    Total(ChainSegments(pts, g), w)
  }

  lemma ChainTotalPick(pts: seq<ContourPoint>, g: Group, w: Integrand)
    ensures ChainTotal(pts, g, w) == Pick(g, ChainTotal(pts, Upper, w), ChainTotal(pts, Lower, w), ChainTotal(pts, Spar, w))
  {
    match g
    case Upper =>
    case Lower =>
    case Spar =>
  }

  /** An integral over the sorted table is the sum of the integrals over
      the chains, in the order the ranking puts them. */
  lemma {:induction false} FrameTotal(pts: seq<ContourPoint>, o: seq<Group>, w: Integrand)
    requires Distinct(o)
    ensures Total(FrameSegments(pts, o), w)
         == OrderSum(o, ChainTotal(pts, Upper, w), ChainTotal(pts, Lower, w), ChainTotal(pts, Spar, w))
    decreases |o|
  {
    if |o| > 0 {
      FrameSplit(pts, o);
      TotalAppend(ChainSegments(pts, o[0]), FrameSegments(pts, o[1..]), w);
      ChainTotalPick(pts, o[0], w);
      FrameTotal(pts, o[1..], w);
    }
  }

  /** The sorted table's segments are the first group's chain followed by
      the rest. */
  lemma FrameSplit(pts: seq<ContourPoint>, o: seq<Group>)
    requires |o| > 0 && Distinct(o)
    ensures Distinct(o[1..])
    ensures FrameSegments(pts, o) == ChainSegments(pts, o[0]) + FrameSegments(pts, o[1..])
  {
    var c := Chain(pts, o[0]);
    var rest := SortedFrame(pts, o[1..]);
    assert SortedFrame(pts, o) == c + rest;
    FrameDisjoint(pts, o);
    RowsAppend(c, rest);
    RowSegmentsAppend(Rows(c), Rows(rest));
  }

  lemma FrameDisjoint(pts: seq<ContourPoint>, o: seq<Group>)
    requires |o| > 0 && Distinct(o)
    ensures Distinct(o[1..])
    ensures GroupsDisjoint(Chain(pts, o[0]), SortedFrame(pts, o[1..]))
  {
    var c := Chain(pts, o[0]);
    var rest := SortedFrame(pts, o[1..]);
    forall i, j | 0 <= i < |c| && 0 <= j < |rest| ensures c[i].group != rest[j].group {
      var k :| 0 <= k < |o[1..]| && o[1..][k] == rest[j].group;
      assert o[k + 1] == rest[j].group;
    }
  }

  /** Under a full ranking an integral over the sorted table is the sum of
      the three chains' integrals. */
  lemma FrameTotalOfGroups(pts: seq<ContourPoint>, o: seq<Group>, w: Integrand)
    requires IsGroupOrder(o)
    ensures Total(FrameSegments(pts, o), w) == ChainTotal(pts, Upper, w) + ChainTotal(pts, Lower, w) + ChainTotal(pts, Spar, w)
  {
    FrameTotal(pts, o, w);
    OrderSumPermutation(o, ChainTotal(pts, Upper, w), ChainTotal(pts, Lower, w), ChainTotal(pts, Spar, w));
  }

  /** Every midpoint-rule integral over the sorted table is the same
      whichever ranking of the groups the sort uses: the section-property
      script ranks them by label, the panelizer by its categorical order,
      and both integrate the same segments. */
  lemma OrderIndependent(pts: seq<ContourPoint>, o: seq<Group>, w: Integrand)
    requires IsGroupOrder(o)
    ensures Total(FrameSegments(pts, o), w) == Total(SectionSegments(pts), w)
  {
    RankingsAreGroupOrders();
    FrameTotalOfGroups(pts, o, w);
    FrameTotalOfGroups(pts, LabelOrder, w);
  }

  // ---------------------------------------------------------------------
  // Wall length as the sum of the steps.

  ghost predicate HasPoint(pts: seq<ContourPoint>, g: Group) {
    exists i :: 0 <= i < |pts| && pts[i].group == g
  }

  ghost predicate StartsAtZero(pts: seq<ContourPoint>, g: Group) {
    exists i :: 0 <= i < |pts| && pts[i].group == g && pts[i].s == 0.0
  }

  /** Arc lengths are not negative and every group that has points has one
      at s = 0. */
  ghost predicate ArcLengthsFromZero(pts: seq<ContourPoint>) {
    && (forall i :: 0 <= i < |pts| ==> pts[i].s >= 0.0)
    && (forall g :: HasPoint(pts, g) ==> StartsAtZero(pts, g))
  }

  /** When each group's arc length starts at 0, `L_total` (the sum of the
      groups' largest `s`) is the sum of all the `ds`. */
  lemma LengthIsSumOfSteps(pts: seq<ContourPoint>)
    requires ArcLengthsFromZero(pts)
    ensures TotalLength(pts) == Total(SectionSegments(pts), Length)
  {
    RankingsAreGroupOrders();
    FrameTotalOfGroups(pts, LabelOrder, Length);
    ChainLength(pts, Upper);
    ChainLength(pts, Lower);
    ChainLength(pts, Spar);
  }

  lemma ChainLength(pts: seq<ContourPoint>, g: Group)
    requires ArcLengthsFromZero(pts)
    ensures ChainTotal(pts, g, Length) == GroupLength(pts, g)
  {
    var c := Chain(pts, g);
    var u := OfGroup(pts, g);
    ChainOfGroup(pts, g);
    if |c| > 0 {
      ChainSpan(c);
      MaxSPermutation(c, u);
      ChainStartsAtZero(pts, g);
    }
  }

  lemma ChainOfGroup(pts: seq<ContourPoint>, g: Group)
    ensures multiset(Chain(pts, g)) == multiset(OfGroup(pts, g))
    ensures |Chain(pts, g)| == |OfGroup(pts, g)|
  {
  }

  /** The steps of a chain sorted by arc length add up to its largest s
      minus its first. */
  lemma ChainSpan(c: seq<ContourPoint>)
    requires |c| > 0 && SortedBy(c, PointS)
    requires forall i :: 0 <= i < |c| ==> c[i].group == c[0].group
    ensures Total(RowSegments(Rows(c)), Length) == MaxS(c) - c[0].s
  {
    assert c[..|c|] == c;
    ChainTelescopes(c, |c|);
    SortedMax(c);
  }

  /** The first point of a non-empty chain is at s = 0. */
  lemma ChainStartsAtZero(pts: seq<ContourPoint>, g: Group)
    requires ArcLengthsFromZero(pts)
    requires |Chain(pts, g)| > 0
    ensures Chain(pts, g)[0].s == 0.0
  {
    var c := Chain(pts, g);
    assert multiset(c)[c[0]] > 0;
    assert c[0] in pts;
    var i :| 0 <= i < |pts| && pts[i] == c[0];
    assert HasPoint(pts, g);
    var j :| 0 <= j < |pts| && pts[j].group == g && pts[j].s == 0.0;
    assert multiset(pts)[pts[j]] > 0;
    assert pts[j] in c;
    var k :| 0 <= k < |c| && c[k] == pts[j];
    assert PointS(c[0]) <= PointS(c[k]);
  }

  /** The last point of a chain sorted by arc length has the largest s. */
  lemma SortedMax(c: seq<ContourPoint>)
    requires |c| > 0 && SortedBy(c, PointS)
    ensures MaxS(c) == c[|c| - 1].s
  {
    var i :| 0 <= i < |c| && c[i].s == MaxS(c);
    assert PointS(c[i]) <= PointS(c[|c| - 1]);
  }

  /** The largest s does not depend on the order of the points. */
  lemma MaxSPermutation(a: seq<ContourPoint>, b: seq<ContourPoint>)
    requires |a| > 0 && |b| > 0 && multiset(a) == multiset(b)
    ensures MaxS(a) == MaxS(b)
  {
    var i :| 0 <= i < |a| && a[i].s == MaxS(a);
    var j :| 0 <= j < |b| && b[j].s == MaxS(b);
    assert a[i] in multiset(b);
    assert b[j] in multiset(a);
  }

  /** In a table of one group, the first row has length 0 and every other
      row the step in s from the row above. */
  lemma ChainRowFirst(f: seq<ContourPoint>)
    requires 0 < |f|
    ensures Rows(f)[0].ds == 0.0
  {
    assert f[..0] == [];
  }

  lemma ChainRowStep(f: seq<ContourPoint>, i: nat)
    requires 0 < i < |f|
    requires forall k :: 0 <= k < |f| ==> f[k].group == f[0].group
    ensures Rows(f)[i].ds == f[i].s - f[i - 1].s
  {
    assert GroupsContiguous(f);
    RowsLocal(f, i);
  }

  /** Within one group the steps telescope: the lengths of the rows of
      the first n points add up to the n-th arc length minus the first. */
  lemma {:induction false} ChainTelescopes(c: seq<ContourPoint>, n: nat)
    requires 0 < n <= |c|
    requires forall i :: 0 <= i < |c| ==> c[i].group == c[0].group
    ensures Total(RowSegments(Rows(c[..n])), Length) == c[n - 1].s - c[0].s
    decreases n
  {
    var f := c[..n];
    PrefixTotalStep(c, n, Length);
    if n == 1 {
      ChainRowFirst(f);
      PrefixEmpty(c);
    } else {
      ChainRowStep(f, n - 1);
      ChainTelescopes(c, n - 1);
    }
  }

  lemma PrefixEmpty(c: seq<ContourPoint>)
    ensures RowSegments(Rows(c[..0])) == []
  {
    assert c[..0] == [];
  }

  /** Growing a table by one point adds that point's row to every
      integral. */
  lemma PrefixTotalStep(c: seq<ContourPoint>, n: nat, w: Integrand)
    requires 0 < n <= |c|
    ensures Total(RowSegments(Rows(c[..n])), w)
         == Total(RowSegments(Rows(c[..n - 1])), w) + Weigh(w, RowSegment(Rows(c[..n])[n - 1]))
  {
    var f := c[..n];
    var last := Rows(f)[n - 1];
    assert f[..n - 1] == c[..n - 1];
    assert Rows(f) == Rows(c[..n - 1]) + [last];
    RowSegmentsAppend(Rows(c[..n - 1]), [last]);
    RowSegmentsSingle(last);
    TotalAppend(RowSegments(Rows(c[..n - 1])), [RowSegment(last)], w);
    TotalSingle(RowSegment(last), w);
  }

  /** The first moments about the centroid vanish: when the wall length is
      the sum of the `ds`, Σ (xm − x_bar)·ds and Σ (ym − y_bar)·ds are
      exactly 0. */
  lemma OffsetsVanish(segs: seq<Segment>, len: real, t: real)
    requires t != 0.0 && len != 0.0
    requires len == Total(segs, Length)
    ensures Total(segs, OffsetX(PropertiesOf(segs, len, t).xbar)) == 0.0
    ensures Total(segs, OffsetY(PropertiesOf(segs, len, t).ybar)) == 0.0
  {
    var r := PropertiesOf(segs, len, t);
    TotalOffset(segs, r.xbar, r.ybar);
  }

  /** The same for the script's result, when each group's arc length
      starts at 0. */
  lemma FirstMomentsVanish(pts: seq<ContourPoint>, t: real)
    requires SectionProperties(pts, t).Ok?
    requires ArcLengthsFromZero(pts)
    ensures Total(SectionSegments(pts), OffsetX(SectionProperties(pts, t).value.xbar)) == 0.0
    ensures Total(SectionSegments(pts), OffsetY(SectionProperties(pts, t).value.ybar)) == 0.0
  {
    var segs := SectionSegments(pts);
    var len := TotalLength(pts);
    assert SectionProperties(pts, t).value == PropertiesOf(segs, len, t);
    LengthIsSumOfSteps(pts);
    OffsetsVanish(segs, len, t);
  }
}

=== FILE: shear_closed.dfy ===
/** The closed-cell correction: the area the panel midpoints enclose
    (shoelace formula with wrap-around), the torque of the basic flow about
    the origin, the external torque of the vertical shear about the
    centroid, the constant redundant flow `q0` that balances them, and the
    resulting total flow and shear stress. `sin θ` and `cos θ` are
    parameters of the model. */
module ShearClosed {
  import opened Results
  import opened RealSums
  import opened Panels
  import opened ShearOpen

  /** Index of the midpoint after `i` on a closed loop of `n`: the last
      one wraps around to the first, as `np.roll(·, −1)` does. */
  function Next(n: nat, i: nat): (j: nat)
    requires i < n
    ensures j < n
  {
    if i + 1 < n then i + 1 else 0
  }

  /** Index in the original sequence of element `i` of the sequence rotated
      left by `k`. */
  function Shift(n: nat, k: nat, i: nat): (j: nat)
    requires k <= n && i < n
    ensures j < n
  {
    if i + k < n then i + k else i + k - n
  }

  /** Cross product of consecutive midpoints:
      `x·roll(y, −1) − roll(x, −1)·y`. */
  function CrossTerms(ps: seq<Panel>): (a: seq<real>)
    ensures |a| == |ps|
    ensures forall i :: 0 <= i < |ps| ==> a[i] == Cross(ps[i], ps[Next(|ps|, i)])
  {
    seq(|ps|, i requires 0 <= i < |ps| => Cross(ps[i], ps[Next(|ps|, i)]))
  }

  function Cross(p: Panel, q: Panel): real {
    p.xm * q.ym - q.xm * p.ym
  }

  function Abs(x: real): (r: real)
    ensures r >= 0.0 && (r == x || r == -x)
  {
    if x < 0.0 then -x else x
  }

  /** `A_cell`: half the absolute shoelace sum; never negative. */
  function CellArea(ps: seq<Panel>): (r: real)
    ensures r >= 0.0
    ensures r == 0.5 * Sum(CrossTerms(ps)) || r == -0.5 * Sum(CrossTerms(ps))
  {
    0.5 * Abs(Sum(CrossTerms(ps)))
  }

  lemma RotateAt<T>(s: seq<T>, k: nat, i: nat)
    requires k <= |s| && i < |s|
    ensures (s[k..] + s[..k])[i] == s[Shift(|s|, k, i)]
  {
  }

  lemma ShiftNext(n: nat, k: nat, i: nat)
    requires k <= n && i < n
    ensures Shift(n, k, Next(n, i)) == Next(n, Shift(n, k, i))
  {
  }

  /** Rotating the cross terms is taking the cross terms of the rotated
      panels. */
  lemma CrossTermsRotate(ps: seq<Panel>, k: nat)
    requires k <= |ps|
    ensures CrossTerms(ps[k..] + ps[..k]) == CrossTerms(ps)[k..] + CrossTerms(ps)[..k]
  {
    var n := |ps|;
    var q := ps[k..] + ps[..k];
    var a := CrossTerms(ps);
    var b := CrossTerms(q);
    forall i | 0 <= i < n ensures b[i] == (a[k..] + a[..k])[i] {
      var j := Shift(n, k, i);
      RotateAt(ps, k, i);
      RotateAt(ps, k, Next(n, i));
      ShiftNext(n, k, i);
      RotateAt(a, k, i);
      assert b[i] == Cross(ps[j], ps[Next(n, j)]);
    }
  }

  /** The enclosed area does not depend on which panel the sequence starts
      at. */
  lemma CellAreaRotationInvariant(ps: seq<Panel>, k: nat)
    requires k <= |ps|
    ensures CellArea(ps[k..] + ps[..k]) == CellArea(ps)
  {
    CrossTermsRotate(ps, k);
    SumRotate(CrossTerms(ps), k);
  }

  /** The plane cross product `u × v` of `(ux, uy)` and `(vx, vy)`. */
  function PlaneCross(ux: real, uy: real, vx: real, vy: real): real {
    ux * vy - uy * vx
  }

  /** Moment arm of a panel's flow about the origin,
      `p = xm·sin θ − ym·cos θ`: the cross product `r × t` of the midpoint
      with the direction `(cos θ, sin θ)`. `ArmOfStep` shows what it is
      when that direction, scaled by `ds`, is the panel's step. */
  function Arm(p: Panel, sin: real -> real, cos: real -> real): (a: real)
    ensures a == PlaneCross(p.xm, p.ym, cos(p.theta), sin(p.theta))
  {
    p.xm * sin(p.theta) - p.ym * cos(p.theta)
  }

  /** The arm depends only on the panel's line of action: sliding the
      midpoint by `d` along the tangent leaves it unchanged. */
  lemma ArmAlongLine(p: Panel, d: real, sin: real -> real, cos: real -> real)
    ensures Arm(p.(xm := p.xm + d * cos(p.theta), ym := p.ym + d * sin(p.theta)), sin, cos) == Arm(p, sin, cos)
  {
    SlideCross(p.xm, p.ym, cos(p.theta), sin(p.theta), d);
  }

  lemma SlideCross(x: real, y: real, c: real, s: real, d: real)
    ensures (x + d * c) * s - (y + d * s) * c == x * s - y * c
  {
  }

  /** For a panel stepping from `(x0, y0)` to `(x1, y1)`, with its midpoint
      halfway and `ds·(cos θ, sin θ)` equal to the step, `ds·p` is
      `x0·y1 − x1·y0`: twice the signed area of the triangle the step makes
      with the origin, the term a shoelace sum adds up. */
  lemma ArmOfStep(p: Panel, x0: real, y0: real, x1: real, y1: real,
                  sin: real -> real, cos: real -> real)
    requires p.xm == 0.5 * (x0 + x1) && p.ym == 0.5 * (y0 + y1)
    requires p.ds * cos(p.theta) == x1 - x0 && p.ds * sin(p.theta) == y1 - y0
    ensures p.ds * Arm(p, sin, cos) == x0 * y1 - x1 * y0
  {
    StepCross(p.xm, p.ym, p.ds, cos(p.theta), sin(p.theta), x0, y0, x1, y1);
  }

  lemma StepCross(xm: real, ym: real, ds: real, c: real, s: real,
                  x0: real, y0: real, x1: real, y1: real)
    requires xm == 0.5 * (x0 + x1) && ym == 0.5 * (y0 + y1)
    requires ds * c == x1 - x0 && ds * s == y1 - y0
    ensures ds * (xm * s - ym * c) == x0 * y1 - x1 * y0
  {
    assert ds * (xm * s - ym * c) == xm * (ds * s) - ym * (ds * c);
  }

  /** `p·qb·ds` for every row. */
  function TorqueTerms(rows: seq<ShearRow>, sin: real -> real, cos: real -> real): (a: seq<real>)
    ensures |a| == |rows|
    ensures forall i :: 0 <= i < |rows| ==>
      a[i] == Arm(rows[i].panel, sin, cos) * rows[i].qb * rows[i].panel.ds
  {
    seq(|rows|, i requires 0 <= i < |rows| => Arm(rows[i].panel, sin, cos) * rows[i].qb * rows[i].panel.ds)
  }

  /** Every row's basic flow is zero. */
  ghost predicate NoFlow(rows: seq<ShearRow>) {
    forall i :: 0 <= i < |rows| ==> rows[i].qb == 0.0
  }

  /** `T_b`: torque of the basic flow; a table with no flow has none. */
  function BasicTorque(rows: seq<ShearRow>, sin: real -> real, cos: real -> real): (tb: real)
    ensures NoFlow(rows) ==> tb == 0.0
  {
    var a := TorqueTerms(rows, sin, cos);
    NoFlowNoTorque(rows, a, sin, cos);
    Sum(a)
  }

  lemma NoFlowNoTorque(rows: seq<ShearRow>, a: seq<real>, sin: real -> real, cos: real -> real)
    requires a == TorqueTerms(rows, sin, cos)
    ensures NoFlow(rows) ==> Sum(a) == 0.0
  {
    if NoFlow(rows) {
      forall i | 0 <= i < |a| ensures a[i] == 0.0 * a[i] {
        assert rows[i].qb == 0.0;
      }
      SumScaled(a, a, 0.0, Sum(a));
    }
  }

  /** Two tables over the same panels whose flows differ by the factor `k`
      row by row. */
  ghost predicate FlowScaled(r: seq<ShearRow>, rows: seq<ShearRow>, k: real) {
    && |r| == |rows|
    && (forall i :: 0 <= i < |rows| ==> r[i].panel == rows[i].panel)
    && (forall i :: 0 <= i < |rows| ==> r[i].qb == k * rows[i].qb)
  }

  /** The basic torque is linear in the flow: scaling every row's flow by
      `k` scales the torque by `k`. */
  lemma BasicTorqueLinear(r: seq<ShearRow>, rows: seq<ShearRow>, k: real, sin: real -> real, cos: real -> real)
    requires FlowScaled(r, rows, k)
    ensures BasicTorque(r, sin, cos) == k * BasicTorque(rows, sin, cos)
  {
    TermSumsScaled(r, rows, k, sin, cos);
  }

  lemma TermSumsScaled(r: seq<ShearRow>, rows: seq<ShearRow>, k: real, sin: real -> real, cos: real -> real)
    requires FlowScaled(r, rows, k)
    ensures Sum(TorqueTerms(r, sin, cos)) == k * Sum(TorqueTerms(rows, sin, cos))
  {
    var b := TorqueTerms(rows, sin, cos);
    TermsScaled(r, rows, k, sin, cos);
    SumScaled(TorqueTerms(r, sin, cos), b, k, Sum(b));
  }

  lemma TermsScaled(r: seq<ShearRow>, rows: seq<ShearRow>, k: real, sin: real -> real, cos: real -> real)
    requires FlowScaled(r, rows, k)
    ensures Scaled(TorqueTerms(r, sin, cos), TorqueTerms(rows, sin, cos), k)
  {
    var a := TorqueTerms(r, sin, cos);
    var b := TorqueTerms(rows, sin, cos);
    forall i | 0 <= i < |a| ensures a[i] == k * b[i] {
      var arm := Arm(rows[i].panel, sin, cos);
      assert r[i].panel == rows[i].panel;
      TermScaled(arm, rows[i].qb, rows[i].panel.ds, k, a[i], r[i].qb, b[i]);
    }
  }

  lemma TermScaled(arm: real, q: real, ds: real, k: real, term: real, kq: real, base: real)
    requires kq == k * q && term == arm * kq * ds && base == arm * q * ds
    ensures term == k * base
  {
  }

  /** The torques of two tables laid end to end add up. */
  lemma BasicTorqueAppend(a: seq<ShearRow>, b: seq<ShearRow>, sin: real -> real, cos: real -> real)
    ensures BasicTorque(a + b, sin, cos) == BasicTorque(a, sin, cos) + BasicTorque(b, sin, cos)
  {
    var ta := TorqueTerms(a, sin, cos);
    var tb := TorqueTerms(b, sin, cos);
    var t := TorqueTerms(a + b, sin, cos);
    forall i | 0 <= i < |t| ensures t[i] == (ta + tb)[i] {
      if i < |a| {
        assert (a + b)[i] == a[i];
      } else {
        assert (a + b)[i] == b[i - |a|];
      }
    }
    assert t == ta + tb;
    SumAppend(ta, tb);
  }

  /** `T_ext = −Sy·(x_load − xbar)`: torque about the centroid of the
      vertical shear applied at `x_load` (the horizontal shear is taken as
      zero here, as the script does). A load through the centroid applies
      none; a positive `Sy` gives a positive torque exactly when it acts
      ahead of the centroid. */
  function ExternalTorque(sy: real, xload: real, xbar: real): (te: real)
    ensures xload == xbar ==> te == 0.0
    ensures sy > 0.0 ==> (te > 0.0 <==> xload < xbar)
  {
    -sy * (xload - xbar)
  }

  /** `T_ext` is minus the moment about the centroid of the force
      `(0, Sy)` applied at any point of the vertical line `x = x_load`:
      whatever the height `dy` of that point relative to the centroid. */
  lemma ExternalTorqueAnyHeight(sy: real, xload: real, xbar: real, dy: real)
    ensures ExternalTorque(sy, xload, xbar) == -PlaneCross(xload - xbar, dy, 0.0, sy)
  {
  }

  /** A row of the final table: the basic-flow row, the total flow and the
      shear stress. */
  datatype ClosedRow = ClosedRow(row: ShearRow, qTotal: real, tau: real)

  /** The outcome of the correction: the cell area, the basic torque, the
      redundant flow and the final table. */
  datatype Correction = Correction(cellArea: real, basicTorque: real, q0: real, rows: seq<ClosedRow>)

  /** `q0 = (T_ext − T_b) / (2·A_cell)`: the constant flow whose torque
      round the cell, 2·A_cell·q0, makes up the difference. */
  function RedundantFlow(text: real, tb: real, area: real): (q0: real)
    requires area != 0.0
    ensures tb + 2.0 * area * q0 == text
  {
    (text - tb) / (2.0 * area)
  }

  /** `tau = q / t`: the stress whose resultant over the thickness is q. */
  function Stress(q: real, t: real): (tau: real)
    requires t != 0.0
    ensures tau * t == q
  {
    q / t
  }

  /** `q_total = qs_b + q0` and `tau = q_total / t` for every row. */
  function CloseRows(rows: seq<ShearRow>, q0: real, t: real): (r: seq<ClosedRow>)
    requires t != 0.0
    ensures Closes(r, rows, q0, t)
  {
    seq(|rows|, i requires 0 <= i < |rows| => ClosedRow(rows[i], rows[i].qb + q0, Stress(rows[i].qb + q0, t)))
  }

  /** Row by row, the final table keeps the basic-flow row, adds `q0` to
      its flow, and carries the stress whose resultant over `t` is the
      total flow. */
  ghost predicate Closes(r: seq<ClosedRow>, rows: seq<ShearRow>, q0: real, t: real) {
    && |r| == |rows|
    && (forall i :: 0 <= i < |rows| ==> r[i].row == rows[i])
    && (forall i :: 0 <= i < |rows| ==> r[i].qTotal - r[i].row.qb == q0)
    && (forall i :: 0 <= i < |rows| ==> r[i].tau * t == r[i].qTotal)
  }

  /** The torque of the basic flow plus that of the redundant flow round
      the cell equals the external torque. */
  ghost predicate TorqueBalanced(c: Correction, text: real) {
    Balances(c.basicTorque, c.cellArea, c.q0, text)
  }

  /** The torque `tb` plus the torque `2·A·q` of a constant flow `q` round
      a cell of area `A` is `text`. */
  ghost predicate Balances(tb: real, area: real, q: real, text: real) {
    tb + 2.0 * area * q == text
  }

  /** The correction for a cell of non-zero area `area` and a non-zero
      thickness. */
  function Correct(rows: seq<ShearRow>, t: real, area: real, tb: real, text: real): (c: Correction)
    requires area != 0.0 && t != 0.0
    ensures c.cellArea == area && c.basicTorque == tb
    ensures TorqueBalanced(c, text)
    ensures Closes(c.rows, rows, c.q0, t)
  {
    var q0 := RedundantFlow(text, tb, area);
    Correction(area, tb, q0, CloseRows(rows, q0, t))
  }

  /** The closed-cell script after `qs_basic`. Its arrays are numpy
      arrays, so a zero cell area (in q0) or a zero thickness (in tau)
      gives non-finite values instead of raising. */
  function CloseCell(rows: seq<ShearRow>, t: real, sy: real, xload: real, xbar: real,
                     sin: real -> real, cos: real -> real): (r: Result<Correction>)
    ensures r.Err? <==> CellArea(PanelsOf(rows)) == 0.0 || t == 0.0
    ensures r.Err? ==> r.error == NonFinite
    ensures r.Ok? ==> r.value.cellArea == CellArea(PanelsOf(rows))
    ensures r.Ok? ==> r.value.basicTorque == BasicTorque(rows, sin, cos)
    ensures r.Ok? ==> TorqueBalanced(r.value, ExternalTorque(sy, xload, xbar))
    ensures r.Ok? ==> Closes(r.value.rows, rows, r.value.q0, t)
  {
    var area := CellArea(PanelsOf(rows));
    if area == 0.0 || t == 0.0 then Err(NonFinite)
    else Ok(Correct(rows, t, area, BasicTorque(rows, sin, cos), ExternalTorque(sy, xload, xbar)))
  }

  /** The panels of a basic-flow table. */
  function PanelsOf(rows: seq<ShearRow>): (ps: seq<Panel>)
    ensures |ps| == |rows|
    ensures forall i :: 0 <= i < |rows| ==> ps[i] == rows[i].panel
  {
    seq(|rows|, i requires 0 <= i < |rows| => rows[i].panel)
  }

  /** The redundant flow is the only constant that balances the torque:
      any q with T_b + 2·A_cell·q = T_ext is q0. */
  lemma RedundantFlowUnique(rows: seq<ShearRow>, t: real, sy: real, xload: real, xbar: real,
                            sin: real -> real, cos: real -> real, q: real)
    requires CloseCell(rows, t, sy, xload, xbar, sin, cos).Ok?
    requires Balances(BasicTorque(rows, sin, cos), CellArea(PanelsOf(rows)), q, ExternalTorque(sy, xload, xbar))
    ensures CloseCell(rows, t, sy, xload, xbar, sin, cos).value.q0 == q
  {
    var c := CloseCell(rows, t, sy, xload, xbar, sin, cos).value;
    CancelArea(c.cellArea, c.q0, q, c.basicTorque, ExternalTorque(sy, xload, xbar));
  }

  lemma CancelArea(area: real, a: real, b: real, tb: real, text: real)
    requires area != 0.0
    requires Balances(tb, area, a, text) && Balances(tb, area, b, text)
    ensures a == b
  {
    assert 2.0 * area * (a - b) == 0.0;
  }
}

=== FILE: shear_open.dfy ===
/** The basic shear flow of the section cut open (`qs_basic`): running
    first moments of the wall about the centroid, accumulated over the
    whole panel sequence, combined with two constants that depend on the
    shear loads and the second moments of area. */
module ShearOpen {
  import opened Results
  import opened RealSums
  import opened Integrals
  import opened Panels

  /** A panel with the columns `qs_basic` adds: `Qy`, `Qx` and `qs_b`. */
  datatype ShearRow = ShearRow(panel: Panel, qy: real, qx: real, qb: real)

  /** The constants `Aconst`, `Bconst` of the flow formula. */
  datatype FlowConstants = FlowConstants(a: real, b: real)

  /** `D = Ixx·Iyy − Ixy²`. */
  function Det(ixx: real, iyy: real, ixy: real): real {
    ixx * iyy - ixy * ixy
  }

  /** `Aconst = −(Sx·Ixx − Sy·Ixy)/D`, `Bconst = −(Sy·Iyy − Sx·Ixy)/D`.
      The operands are Python floats, so D = 0 raises a division by zero. */
  function Constants(sx: real, sy: real, ixx: real, iyy: real, ixy: real): (r: Result<FlowConstants>)
    ensures r.Err? <==> Det(ixx, iyy, ixy) == 0.0
    ensures r.Err? ==> r.error == DivisionByZero
  {
    var d := Det(ixx, iyy, ixy);
    if d == 0.0 then Err(DivisionByZero)
    else Ok(FlowConstants(-(sx * ixx - sy * ixy) / d, -(sy * iyy - sx * ixy) / d))
  }

  /** The 2×2 bending system the constants satisfy,
      `A·Iyy + B·Ixy = −Sx` and `A·Ixy + B·Ixx = −Sy`; when D ≠ 0 the
      computed constants are its only solution. */
  ghost predicate Solves(c: FlowConstants, sx: real, sy: real, ixx: real, iyy: real, ixy: real) {
    c.a * iyy + c.b * ixy == -sx && c.a * ixy + c.b * ixx == -sy
  }

  lemma ConstantsSolve(sx: real, sy: real, ixx: real, iyy: real, ixy: real)
    requires Det(ixx, iyy, ixy) != 0.0
    ensures Solves(Constants(sx, sy, ixx, iyy, ixy).value, sx, sy, ixx, iyy, ixy)
  {
    var d := Det(ixx, iyy, ixy);
    var na := -(sx * ixx - sy * ixy);
    var nb := -(sy * iyy - sx * ixy);
    var a := na / d;
    var b := nb / d;
    assert a * d == na && b * d == nb;
    assert (a * iyy + b * ixy) * d == na * iyy + nb * ixy;
    assert na * iyy + nb * ixy == -sx * d;
    assert (a * ixy + b * ixx) * d == na * ixy + nb * ixx;
    assert na * ixy + nb * ixx == -sy * d;
    CancelFactor(a * iyy + b * ixy, -sx, d);
    CancelFactor(a * ixy + b * ixx, -sy, d);
  }

  lemma CancelFactor(x: real, y: real, d: real)
    requires d != 0.0 && x * d == y * d
    ensures x == y
  {
    assert (x - y) * d == 0.0;
  }

  /** Any pair solving the 2×2 bending system is the pair of constants. */
  lemma ConstantsUnique(c: FlowConstants, sx: real, sy: real, ixx: real, iyy: real, ixy: real)
    requires Det(ixx, iyy, ixy) != 0.0
    requires Solves(c, sx, sy, ixx, iyy, ixy)
    ensures Constants(sx, sy, ixx, iyy, ixy).value == c
  {
    var d := Det(ixx, iyy, ixy);
    var k := Constants(sx, sy, ixx, iyy, ixy).value;
    ConstantsSolve(sx, sy, ixx, iyy, ixy);
    var da := c.a - k.a;
    var db := c.b - k.b;
    assert da * iyy + db * ixy == 0.0;
    assert da * ixy + db * ixx == 0.0;
    assert da * d == (da * iyy + db * ixy) * ixx - (da * ixy + db * ixx) * ixy;
    assert db * d == (da * ixy + db * ixx) * iyy - (da * iyy + db * ixy) * ixy;
    CancelFactor(da, 0.0, d);
    CancelFactor(db, 0.0, d);
  }

  /** The first-moment increment of one panel about `c`, times the
      thickness: t·(xm − xbar)·ds or t·(ym − ybar)·ds. */
  function MomentTerms(ps: seq<Panel>, t: real, w: Integrand): (a: seq<real>)
    ensures |a| == |ps|
    ensures forall i :: 0 <= i < |ps| ==> a[i] == t * Weigh(w, PanelSegment(ps[i]))
  {
    seq(|ps|, i requires 0 <= i < |ps| => t * Weigh(w, PanelSegment(ps[i])))
  }

  /** `qs_b = −(A·Qy + B·Qx)` at one panel. */
  function Flow(c: FlowConstants, qy: real, qx: real): real {
    -(c.a * qy + c.b * qx)
  }

  /** The output table: each panel with its running moments and flow. */
  function Attach(ps: seq<Panel>, qy: seq<real>, qx: seq<real>, c: FlowConstants): (rows: seq<ShearRow>)
    requires |qy| == |ps| && |qx| == |ps|
    ensures |rows| == |ps|
    ensures forall i :: 0 <= i < |ps| ==> rows[i] == ShearRow(ps[i], qy[i], qx[i], Flow(c, qy[i], qx[i]))
  {
    seq(|ps|, i requires 0 <= i < |ps| => ShearRow(ps[i], qy[i], qx[i], Flow(c, qy[i], qx[i])))
  }

  /** `qs_basic`. Each output row is its input panel, unchanged, with the
      running first moments `Qy`, `Qx` (cumulative over the whole panel
      sequence, never restarted at a group boundary) and the basic flow
      `qs_b = −(A·Qy + B·Qx)`; D = 0 fails. */
  function QsBasic(ps: seq<Panel>, t: real, sx: real, sy: real, ixx: real, iyy: real, ixy: real,
                   xbar: real, ybar: real): (r: Result<seq<ShearRow>>)
    ensures r.Err? <==> Det(ixx, iyy, ixy) == 0.0
    ensures r.Err? ==> r.error == DivisionByZero
    ensures r.Ok? ==> |r.value| == |ps|
    ensures r.Ok? ==> forall i :: 0 <= i < |ps| ==> r.value[i].panel == ps[i]
    ensures r.Ok? ==> forall i :: 0 <= i < |ps| ==>
      && r.value[i].qy == Sum(MomentTerms(ps, t, OffsetX(xbar))[..i + 1])
      && r.value[i].qx == Sum(MomentTerms(ps, t, OffsetY(ybar))[..i + 1])
    ensures r.Ok? && |ps| > 0 ==>
      && r.value[0].qy == MomentTerms(ps, t, OffsetX(xbar))[0]
      && r.value[0].qx == MomentTerms(ps, t, OffsetY(ybar))[0]
    ensures r.Ok? ==> forall i :: 0 < i < |ps| ==>
      && r.value[i].qy == r.value[i - 1].qy + MomentTerms(ps, t, OffsetX(xbar))[i]
      && r.value[i].qx == r.value[i - 1].qx + MomentTerms(ps, t, OffsetY(ybar))[i]
    ensures r.Ok? ==> forall i :: 0 <= i < |ps| ==>
      r.value[i].qb == Flow(Constants(sx, sy, ixx, iyy, ixy).value, r.value[i].qy, r.value[i].qx)
  {
    var c :- Constants(sx, sy, ixx, iyy, ixy);
    var qy := CumSum(MomentTerms(ps, t, OffsetX(xbar)));
    var qx := CumSum(MomentTerms(ps, t, OffsetY(ybar)));
    Ok(Attach(ps, qy, qx, c))
  }

  /** With no shear load there is no flow. */
  lemma NoLoadNoFlow(ps: seq<Panel>, t: real, ixx: real, iyy: real, ixy: real, xbar: real, ybar: real)
    requires Det(ixx, iyy, ixy) != 0.0
    ensures forall i :: 0 <= i < |ps| ==> QsBasic(ps, t, 0.0, 0.0, ixx, iyy, ixy, xbar, ybar).value[i].qb == 0.0
  {
    var c := Constants(0.0, 0.0, ixx, iyy, ixy).value;
    assert c.a == 0.0 && c.b == 0.0;
    forall qy: real, qx: real ensures Flow(c, qy, qx) == 0.0 {
    }
  }

  /** The constants are linear in the loads. */
  lemma ConstantsLinear(sx1: real, sy1: real, sx2: real, sy2: real, ixx: real, iyy: real, ixy: real)
    requires Det(ixx, iyy, ixy) != 0.0
    ensures Constants(sx1 + sx2, sy1 + sy2, ixx, iyy, ixy).value.a
         == Constants(sx1, sy1, ixx, iyy, ixy).value.a + Constants(sx2, sy2, ixx, iyy, ixy).value.a
    ensures Constants(sx1 + sx2, sy1 + sy2, ixx, iyy, ixy).value.b
         == Constants(sx1, sy1, ixx, iyy, ixy).value.b + Constants(sx2, sy2, ixx, iyy, ixy).value.b
  {
    var d := Det(ixx, iyy, ixy);
    DivAdd(-(sx1 * ixx - sy1 * ixy), -(sx2 * ixx - sy2 * ixy), d);
    DivAdd(-(sy1 * iyy - sx1 * ixy), -(sy2 * iyy - sx2 * ixy), d);
    assert -((sx1 + sx2) * ixx - (sy1 + sy2) * ixy) == -(sx1 * ixx - sy1 * ixy) + -(sx2 * ixx - sy2 * ixy);
    assert -((sy1 + sy2) * iyy - (sx1 + sx2) * ixy) == -(sy1 * iyy - sx1 * ixy) + -(sy2 * iyy - sx2 * ixy);
  }

  lemma DivAdd(x: real, y: real, d: real)
    requires d != 0.0
    ensures (x + y) / d == x / d + y / d
  {
  }

  /** The basic flow is linear in the loads: the flow of two loads applied
      together is the sum of their flows. */
  lemma FlowLinear(ps: seq<Panel>, t: real, sx1: real, sy1: real, sx2: real, sy2: real,
                   ixx: real, iyy: real, ixy: real, xbar: real, ybar: real)
    requires Det(ixx, iyy, ixy) != 0.0
    ensures forall i :: 0 <= i < |ps| ==>
      QsBasic(ps, t, sx1 + sx2, sy1 + sy2, ixx, iyy, ixy, xbar, ybar).value[i].qb
      == QsBasic(ps, t, sx1, sy1, ixx, iyy, ixy, xbar, ybar).value[i].qb
       + QsBasic(ps, t, sx2, sy2, ixx, iyy, ixy, xbar, ybar).value[i].qb
  {
    var r := QsBasic(ps, t, sx1 + sx2, sy1 + sy2, ixx, iyy, ixy, xbar, ybar).value;
    var r1 := QsBasic(ps, t, sx1, sy1, ixx, iyy, ixy, xbar, ybar).value;
    var r2 := QsBasic(ps, t, sx2, sy2, ixx, iyy, ixy, xbar, ybar).value;
    var c := Constants(sx1 + sx2, sy1 + sy2, ixx, iyy, ixy).value;
    var c1 := Constants(sx1, sy1, ixx, iyy, ixy).value;
    var c2 := Constants(sx2, sy2, ixx, iyy, ixy).value;
    ConstantsLinear(sx1, sy1, sx2, sy2, ixx, iyy, ixy);
    forall i | 0 <= i < |ps| ensures r[i].qb == r1[i].qb + r2[i].qb {
      assert r[i].qy == r1[i].qy == r2[i].qy && r[i].qx == r1[i].qx == r2[i].qx;
      FlowSplit(c, c1, c2, r[i].qy, r[i].qx);
    }
  }

  lemma FlowSplit(c: FlowConstants, c1: FlowConstants, c2: FlowConstants, qy: real, qx: real)
    requires c.a == c1.a + c2.a && c.b == c1.b + c2.b
    ensures Flow(c, qy, qx) == Flow(c1, qy, qx) + Flow(c2, qy, qx)
  {
  }

  /** Summing thickness-scaled increments is scaling the integral. */
  lemma MomentTermsSum(ps: seq<Panel>, t: real, w: Integrand)
    ensures Sum(MomentTerms(ps, t, w)) == t * Total(PanelSegments(ps), w)
  {
    MomentTermsScale(ps, t, w);
    TotalIsSum(PanelSegments(ps), w);
    ScaledTotal(MomentTerms(ps, t, w), PanelSegments(ps), w, t);
  }

  lemma MomentTermsScale(ps: seq<Panel>, t: real, w: Integrand)
    ensures Scaled(MomentTerms(ps, t, w), Weights(PanelSegments(ps), w), t)
  {
  }

  /** Terms that scale the contributions of `segs` by `t` sum to `t` times
      the integral. */
  lemma ScaledTotal(r: seq<real>, segs: seq<Segment>, w: Integrand, t: real)
    requires Scaled(r, Weights(segs, w), t)
    requires Total(segs, w) == Sum(Weights(segs, w))
    ensures Sum(r) == t * Total(segs, w)
  {
    SumScaled(r, Weights(segs, w), t, Total(segs, w));
  }

  /** When xbar (ybar) is the length-weighted mean of the panel midpoints,
      the running first moment returns to 0 at the last panel: the open
      section's flow closes. */
  lemma LastMomentVanishes(ps: seq<Panel>, t: real, sx: real, sy: real, ixx: real, iyy: real, ixy: real,
                           xbar: real, ybar: real)
    requires Det(ixx, iyy, ixy) != 0.0 && |ps| > 0
    requires xbar * Total(PanelSegments(ps), Length) == Total(PanelSegments(ps), MomentX)
    requires ybar * Total(PanelSegments(ps), Length) == Total(PanelSegments(ps), MomentY)
    ensures QsBasic(ps, t, sx, sy, ixx, iyy, ixy, xbar, ybar).value[|ps| - 1].qy == 0.0
    ensures QsBasic(ps, t, sx, sy, ixx, iyy, ixy, xbar, ybar).value[|ps| - 1].qx == 0.0
  {
    var n := |ps|;
    TotalOffset(PanelSegments(ps), xbar, ybar);
    assert Total(PanelSegments(ps), OffsetX(xbar)) == 0.0;
    assert Total(PanelSegments(ps), OffsetY(ybar)) == 0.0;
    ClosedMomentSum(ps, t, OffsetX(xbar));
    ClosedMomentSum(ps, t, OffsetY(ybar));
  }

  lemma ClosedMomentSum(ps: seq<Panel>, t: real, w: Integrand)
    requires |ps| > 0 && Total(PanelSegments(ps), w) == 0.0
    ensures Sum(MomentTerms(ps, t, w)[..|ps|]) == 0.0
  {
    assert MomentTerms(ps, t, w)[..|ps|] == MomentTerms(ps, t, w);
    MomentTermsSum(ps, t, w);
  }
}

=== FILE: sorting.dfy ===
/** Sorting by a real-valued key, standing in for `np.argsort` and the
    two-column `DataFrame.sort_values`. The insertion sort below is stable:
    elements with equal keys keep their input order, as pandas keeps them
    in a sort on two columns. numpy's default quicksort gives no such
    promise, which is why the contracts on sorted curves use only order
    and permutation. */
module Sorting {

  ghost predicate SortedBy<T>(s: seq<T>, key: T -> real) {
    forall i, j :: 0 <= i < j < |s| ==> key(s[i]) <= key(s[j])
  }

  /** No two elements share a key. */
  ghost predicate KeysDistinct<T>(s: seq<T>, key: T -> real) {
    forall i, j :: 0 <= i < j < |s| ==> key(s[i]) != key(s[j])
  }

  /** Inserts `p` in front of the first element whose key is not smaller. */
  function Insert<T>(p: T, s: seq<T>, key: T -> real): (r: seq<T>)
    requires SortedBy(s, key)
    ensures SortedBy(r, key)
    ensures multiset(r) == multiset(s) + multiset{p}
    decreases |s|
  {
    if |s| == 0 then [p]
    else if key(p) <= key(s[0]) then [p] + s
    else
      var rest := Insert(p, s[1..], key);
      ConsSorted(s[0], p, s[1..], rest, key);
      assert s == [s[0]] + s[1..];
      [s[0]] + rest
  }

  /** Helper for Insert: a head no larger than anything in the sorted tail. */
  lemma ConsSorted<T>(h: T, p: T, tail: seq<T>, rest: seq<T>, key: T -> real)
    requires SortedBy([h] + tail, key)
    requires key(h) <= key(p)
    requires SortedBy(rest, key)
    requires multiset(rest) == multiset(tail) + multiset{p}
    ensures SortedBy([h] + rest, key)
  {
    forall q | q in rest ensures key(h) <= key(q) {
      assert q in multiset(rest);
      if q != p {
        assert q in multiset(tail);
        var k :| 0 <= k < |tail| && tail[k] == q;
        assert ([h] + tail)[0] == h && ([h] + tail)[k + 1] == q;
      }
    }
    var t := [h] + rest;
    forall i, j | 0 <= i < j < |t| ensures key(t[i]) <= key(t[j]) {
      if i == 0 {
        assert t[j] in rest;
      } else {
        assert t[i] == rest[i - 1] && t[j] == rest[j - 1];
      }
    }
  }

  function SortBy<T>(s: seq<T>, key: T -> real): (r: seq<T>)
    ensures SortedBy(r, key)
    ensures multiset(r) == multiset(s)
    ensures |r| == |s|
    decreases |s|
  {
    if |s| == 0 then []
    else
      assert s == [s[0]] + s[1..];
      Insert(s[0], SortBy(s[1..], key), key)
  }

  /** The elements whose key is `k`, in their order in `s`. */
  function Ties<T>(s: seq<T>, key: T -> real, k: real): seq<T>
    decreases |s|
  {
    if |s| == 0 then []
    else (if key(s[0]) == k then [s[0]] else []) + Ties(s[1..], key, k)
  }

  /** Inserting `p` places it ahead of every element with its key. */
  lemma {:induction false} InsertTies<T>(p: T, s: seq<T>, key: T -> real, k: real)
    requires SortedBy(s, key)
    ensures Ties(Insert(p, s, key), key, k) == (if key(p) == k then [p] else []) + Ties(s, key, k)
    decreases |s|
  {
    if |s| == 0 {
    } else if key(p) <= key(s[0]) {
      assert Insert(p, s, key) == [p] + s;
      assert ([p] + s)[1..] == s;
    } else {
      var tail := s[1..];
      var rest := Insert(p, tail, key);
      assert Insert(p, s, key) == [s[0]] + rest;
      SortedTail(s, key);
      InsertTies(p, tail, key, k);
      TiesCons(s[0], rest, key, k);
      assert s == [s[0]] + tail;
      TiesCons(s[0], tail, key, k);
      SwapEmpty(if key(s[0]) == k then [s[0]] else [], if key(p) == k then [p] else [], Ties(tail, key, k));
    }
  }

  lemma TiesCons<T>(x: T, s: seq<T>, key: T -> real, k: real)
    ensures Ties([x] + s, key, k) == (if key(x) == k then [x] else []) + Ties(s, key, k)
  {
    assert ([x] + s)[1..] == s;
  }

  /** Two pieces of which one is empty may be swapped. */
  lemma SwapEmpty<T>(a: seq<T>, b: seq<T>, c: seq<T>)
    requires a == [] || b == []
    ensures a + (b + c) == b + (a + c)
  {
    if a == [] {
      assert a + (b + c) == b + c == b + (a + c);
    } else {
      assert a + (b + c) == a + c == b + (a + c);
    }
  }

  lemma SortedTail<T>(s: seq<T>, key: T -> real)
    requires |s| > 0 && SortedBy(s, key)
    ensures SortedBy(s[1..], key)
  {
    forall i, j | 0 <= i < j < |s[1..]| ensures key(s[1..][i]) <= key(s[1..][j]) {
      assert s[1..][i] == s[i + 1] && s[1..][j] == s[j + 1];
    }
  }

  /** Stability: sorting keeps the elements of each key in input order. */
  lemma {:induction false} SortByStable<T>(s: seq<T>, key: T -> real, k: real)
    ensures Ties(SortBy(s, key), key, k) == Ties(s, key, k)
    decreases |s|
  {
    if |s| > 0 {
      SortByStable(s[1..], key, k);
      InsertTies(s[0], SortBy(s[1..], key), key, k);
    }
  }

  lemma ConsKeysDistinct<T>(x: T, s: seq<T>, key: T -> real)
    requires KeysDistinct(s, key)
    requires forall q :: q in s ==> key(q) != key(x)
    ensures KeysDistinct([x] + s, key)
  {
    var t := [x] + s;
    forall i, j | 0 <= i < j < |t| ensures key(t[i]) != key(t[j]) {
      if i == 0 {
        assert t[j] == s[j - 1];
      } else {
        assert t[i] == s[i - 1] && t[j] == s[j - 1];
      }
    }
  }

  lemma {:induction false} InsertKeysDistinct<T>(p: T, s: seq<T>, key: T -> real)
    requires SortedBy(s, key)
    requires KeysDistinct(s, key)
    requires forall q :: q in s ==> key(q) != key(p)
    ensures KeysDistinct(Insert(p, s, key), key)
    decreases |s|
  {
    if |s| == 0 {
    } else if key(p) <= key(s[0]) {
      ConsKeysDistinct(p, s, key);
    } else {
      var rest := Insert(p, s[1..], key);
      assert KeysDistinct(s[1..], key) by {
        forall i, j | 0 <= i < j < |s[1..]| ensures key(s[1..][i]) != key(s[1..][j]) {
          assert s[1..][i] == s[i + 1] && s[1..][j] == s[j + 1];
        }
      }
      InsertKeysDistinct(p, s[1..], key);
      forall q | q in rest ensures key(q) != key(s[0]) {
        assert q in multiset(rest);
        if q != p {
          assert q in s[1..];
          var k :| 0 <= k < |s[1..]| && s[1..][k] == q;
          assert s[k + 1] == q;
        }
      }
      ConsKeysDistinct(s[0], rest, key);
    }
  }

  /** Sorting keeps keys pairwise distinct. */
  lemma {:induction false} SortKeysDistinct<T>(s: seq<T>, key: T -> real)
    requires KeysDistinct(s, key)
    ensures KeysDistinct(SortBy(s, key), key)
    decreases |s|
  {
    if |s| > 0 {
      var tail := s[1..];
      assert KeysDistinct(tail, key) by {
        forall i, j | 0 <= i < j < |tail| ensures key(tail[i]) != key(tail[j]) {
          assert tail[i] == s[i + 1] && tail[j] == s[j + 1];
        }
      }
      SortKeysDistinct(tail, key);
      var sorted := SortBy(tail, key);
      forall q | q in sorted ensures key(q) != key(s[0]) {
        assert q in multiset(sorted);
        var k :| 0 <= k < |tail| && tail[k] == q;
        assert s[k + 1] == q;
      }
      InsertKeysDistinct(s[0], sorted, key);
    }
  }

  /** Sorted with distinct keys means strictly increasing keys. */
  lemma SortedDistinctStrict<T>(s: seq<T>, key: T -> real)
    requires SortedBy(s, key)
    requires KeysDistinct(s, key)
    ensures forall i, j :: 0 <= i < j < |s| ==> key(s[i]) < key(s[j])
  {
  }
}
